=== FILE: README.md ===
# Task manager core, modelled in Dafny

This project models the core of a Laravel task manager with a Vue/Vuex client.

**Server side**
- Users own tasks. A task has:
  - a title and a description;
  - a priority: urgent, high, normal or low (normal by default);
  - an optional due date;
  - a manual `task_order`;
  - nullable `completed_at` and `archived_at` timestamps;
  - a soft-delete marker.
- Tasks carry tags, which are shared by name, and file attachments, each classed as image, video or document.
- The task service lists, creates, updates, toggles, reorders and soft-deletes tasks.
- The tag service finds or creates, renames, searches, attaches, detaches and deletes tags. A tag is deleted only when no other user's task carries it.
- A policy decides who may see or change a task. Guests get 401, other users' tasks get 403.
- A middleware keeps guest accounts away from mutating routes.
- The task controller drops blank query values and fills in sort defaults. For show, update, destroy, complete and incomplete it does lookup (404), then authorization, then the service call. Archive and restore only look the task up, with no authorization step (see Findings).
- The authentication service registers, logs in, creates guest accounts and revokes tokens.
- Two request classes validate task and tag input.

**Client side**
- Three Vuex stores (tasks, tags, auth) hold lists and maps that mutations change in place.
- The fetch, create, update, delete and download actions clear their loading flag whether or not the request succeeds. completeTask, archiveTask, restoreTask and setPage never set it themselves; completeTask's refetch does.
- A router guard sends unauthenticated users to `/login` and authenticated users away from guest-only pages.

**How it is modelled**
- The server tables are a class `Db.Database`. It holds:
  - the tasks, tags and attachments maps;
  - the task–tag pivot;
  - the set of stored file paths;
  - the current user;
  - the clock;
  - the auto-increment counters.
- Service operations are methods on it. Each states its whole new state through `State()`: every table and counter is either given exactly or left unchanged. The one exception is tags created by name. Those are pinned down by their names (exactly the named tags, old tags unchanged, new tags only for names no tag had), not by the ids the counter hands out. The methods are tied to pure functions (`Reordered`, `SyncRel`, `NewAttachments`, `FirstOrCreate`, …), and lemmas are proved about those functions.
- `create` and `update` are stated as transitions between two snapshots: `TaskService.Created` and `TaskService.Updated`. The controller's store and update actions promise the same transitions.
- Decisions (policy, middleware, validation, login outcome, router guard) are pure functions.
- The Vuex stores are classes whose mutations are methods with frame conditions. Their actions take the server's reply (success or failure) as a parameter.

## Where the code is followed over its description

- Archive and restore are inside the prevent-guest route group (routes/api.php:35-46), so guests are blocked from both. `TaskController.RestoreIsGuestBlocked` records this.
- Soft-deleting a task keeps its attachment rows. Only the stored files are removed (app/Services/TaskService.php:141-151).
- `update`, the toggles and `delete` in the task service find the task by id only, with no owner check. The controller's policy call is what restricts them.
- `incomplete` calls the same toggle as `complete`, so on an unfinished task it marks the task completed.

## Model

| member | source | states |
|---|---|---|
| TaskModel.Archived | app/Models/Task.php:80-91 | the archived scope holds exactly when the active scope does not |
| TaskModel.NotTrashed | app/Models/Task.php:16 | SoftDeletes: a row is visible exactly when deleted_at is null |
| TaskModel.Active | app/Models/Task.php:80-86 | the active scope keeps exactly the rows whose archived_at is null |
| TaskModel.Completed | app/Models/Task.php:96-102 | the completed scope keeps exactly the rows whose completed_at is set |
| TaskModel.Incomplete | app/Models/Task.php:96-107 | the incomplete scope holds exactly when the completed scope does not |
| TaskModel.HasPriority | app/Models/Task.php:112-115 | the priority scope keeps exactly the rows whose stored priority name equals the argument's |
| TaskModel.Fill | app/Models/Task.php:23-32 | mass assignment keeps only fillable attributes, each with its given value |
| TaskModel.GuardedColumnsNeverFilled | app/Models/Task.php:23-32 | id, deleted_at and the timestamps can never be mass assigned |
| Schema.ParsePriority | database/migrations/2024_11_01_151200_create_tasks_table.php:20 | exactly the four enum names parse, and parsing inverts the stored name |
| Db.FindTask | app/Models/Task.php:16 | a lookup finds a row exactly when it exists and is not soft-deleted |
| Db.FindTagByName | app/Services/TagService.php:27-29 | finds the tag with that name, or reports that no tag has it |
| Db.SyncRel | app/Services/TagService.php:79 | after sync the task carries exactly the listed tags and every other task keeps its own |
| Db.DetachRel | app/Services/TagService.php:87 | detach removes only the one task–tag association |
| AttachmentModel.IsImage | app/Models/Attachment.php:83-86 | is_image holds exactly when file_type is 'image' |
| AttachmentModel.IsVideo | app/Models/Attachment.php:91-94 | is_video holds exactly when file_type is 'video' |
| AttachmentModel.IsDocument | app/Models/Attachment.php:99-102 | is_document holds exactly when file_type is 'document' |
| AttachmentModel.ExactlyOneKindFlag | app/Models/Attachment.php:83-102 | exactly one of the three flags holds for every attachment |
| AttachmentModel.Extension | app/Models/Attachment.php:75-78 | the extension holds no '.' or '/'; when the base name has a '.' it is exactly the text after the last one, otherwise it is empty |
| AttachmentModel.DetermineFileType | app/Services/TaskService.php:201-214 | 'image/…' gives image, otherwise 'video/…' gives video, anything else document |
| AttachmentModel.MimeClassesDisjoint | app/Services/TaskService.php:205-211 | no MIME type starts with both prefixes, so the order of the tests is immaterial |
| Php.IntVal | app/Services/TaskService.php:64 | intval skips leading white space, reads an optional sign, and gives the (negated) leading number after it: the positional value of the leading digits, 0 when there are none |
| Php.DigitsValueIsLeadingNumber | app/Services/TaskService.php:64 | reading digits left to right with an accumulator gives acc · 10^k plus the positional value of the k leading digits |
| Php.IntValExamples | app/Services/TaskService.php:64 | worked values: "" and "abc" give 0, " 12x" gives 12, "-3" gives -3, "+-1" gives 0 |
| Php.ToLower | app/Services/TaskService.php:57 | strtolower maps A–Z to a–z and keeps every other character and the length |
| TaskService.OnlyFilterKeysMatter | app/Services/TaskService.php:16-47 | two filter maps that agree on the filter keys select the same tasks |
| TaskService.ListingIds | app/Services/TaskService.php:16-47 | the selected rows are exactly the user's non-deleted tasks in the requested archive partition that pass the search, priority, status and date filters |
| TaskService.SortColumn | app/Services/TaskService.php:50-55 | a sortBy outside {created_at, due_date, priority, completed_at} falls back to created_at |
| TaskService.SortDirection | app/Services/TaskService.php:56-59 | the direction is asc exactly when the lower-cased value is 'asc', otherwise desc |
| TaskService.CurrentPage | app/Services/TaskService.php:64 | the page is intval(page) when that is at least 1, and 1 when it is smaller or the key is absent |
| TaskService.ClampPerPage | app/Services/TaskService.php:65 | per-page is clamped into [1, 50] and kept when already inside |
| TaskService.PageOf | app/Services/TaskService.php:67-70 | a page holds min(perPage, rows left after the offset) ids, and item i is row offset + i of the ordered listing |
| TaskService.OffsetIsProduct | app/Services/TaskService.php:67-70 | the rows skipped before a page are (page − 1) · perPage |
| TaskService.DistinctCardinality | app/Services/TaskService.php:67-70 | a duplicate-free ordering has as many elements as the listed set |
| TaskService.List | app/Services/TaskService.php:14-71 | the items are the requested page of the ordered selection, and every one is the user's, visible, in the right archive partition and passes every filter; total counts the whole selection; page, page size (clamped to 1–50) and sort are the normalised request |
| TaskService.ArchivedPartition | app/Services/TaskService.php:35-39 | the archived=true view and the default view are disjoint and together give every visible task of the user that passes the filters |
| TaskService.StoredAttachment | app/Services/TaskService.php:182-196 | a stored upload keeps its client name and stored path and is classed by its MIME type |
| TaskService.NewAttachments | app/Services/TaskService.php:182-196 | one new attachment row per upload, under consecutive fresh ids |
| TaskService.NewAttachmentsSnoc | app/Services/TaskService.php:184-195 | one more loop iteration adds exactly the next upload's row |
| TaskService.PathSet | app/Services/TaskService.php:186 | the stored paths are exactly the paths of the uploads |
| TaskService.PathSetSnoc | app/Services/TaskService.php:186 | one more loop iteration adds exactly that upload's path |
| TaskService.AddAttachment | app/Services/TaskService.php:186-193 | one attachment row is inserted under the next id and its path is stored; nothing else changes |
| TaskService.NextTaskOrder | app/Services/TaskService.php:174-177 | above every task_order of the user's visible tasks: one more than the largest, or 1 when there are none |
| TaskService.NewTask | app/Services/TaskService.php:76-83 | a created task belongs to the current user, has priority normal and due date null when they are omitted, and is neither completed, archived nor deleted |
| TaskService.UpdatedTask | app/Services/TaskService.php:102-107 | update overwrites title and description and keeps the old priority and due date when the new value is missing |
| TaskService.HandleTags | app/Services/TaskService.php:164-172 | a missing task changes nothing; otherwise the task's tags become exactly the tags named, each reused by name or created, old tags keep their names, other tasks keep theirs, and no other table changes |
| TaskService.HandleAttachments | app/Services/TaskService.php:182-196 | the new rows are added beside the existing ones, the paths are stored, and nothing else changes |
| TaskService.Create | app/Services/TaskService.php:73-95 | inserts NewTask with the next id and the next task order; a non-empty tag list becomes exactly the task's tags, otherwise it has none; the uploads become rows and stored files; no other table or counter changes |
| TaskService.Update | app/Services/TaskService.php:97-119 | a missing or deleted id changes nothing; otherwise the row becomes UpdatedTask, a given tag list (even empty) becomes exactly the tags and an absent one leaves them, the uploads are added; no other table or counter changes |
| TaskService.ToggledCompletion | app/Services/TaskService.php:125-127 | completed_at becomes now when unset and null when set |
| TaskService.ToggleTwiceFromUnset | app/Services/TaskService.php:121-129 | two toggles starting from unset end unset |
| TaskService.ToggleComplete | app/Services/TaskService.php:121-129 | a missing id changes nothing; otherwise only that task's completed_at toggles |
| TaskService.ArchivedValue | app/Services/TaskService.php:135-137 | archived_at is cleared for RESTORE and set to now for any other status |
| TaskService.ToggleArchive | app/Services/TaskService.php:131-139 | a missing id changes nothing; otherwise only that task's archived_at changes |
| TaskService.Delete | app/Services/TaskService.php:141-151 | a missing id changes nothing; otherwise every attachment path of the task leaves the file store and the task is soft-deleted; attachment rows stay |
| TaskService.LastOrderFor | app/Services/TaskService.php:156-160 | the order the last entry for an id gives, or none when no entry names it |
| TaskService.ReorderedAt | app/Services/TaskService.php:153-162 | only the current user's visible tasks that are listed change, each to the order of its last entry; every other task is unchanged |
| TaskService.Reordered | app/Services/TaskService.php:153-162 | reordering keeps the set of task ids; ReorderedAt gives each task's outcome |
| TaskService.Reorder | app/Services/TaskService.php:153-162 | the tasks table becomes the reordering of the old one; nothing else changes |
| TagService.AttachedTagsAreListed | app/Services/TagService.php:14-19 | every tag on one of the user's visible tasks is in the tag list |
| TagService.List | app/Services/TagService.php:14-19 | the tag list holds exactly the tags carried by some non-deleted task of the user |
| TagService.FindByNamesMatchesAttached | app/Services/TagService.php:65-68 | after a sync with some names, findByNames on those names returns exactly the task's tags |
| TagService.FindByNames | app/Services/TagService.php:65-68 | exactly the tags whose name is one of the given names |
| TagService.Search | app/Services/TagService.php:93-101 | at most 10 tags, ascending, each used by the user and containing the query; any matching tag left out comes after ten that are included |
| TagService.FirstOrCreate | app/Services/TagService.php:24-31 | returns the existing tag with that name, or adds one new tag under a fresh id; names stay unique |
| TagService.FirstOrCreateIdempotent | app/Services/TagService.php:27-29 | a second call with the same name returns the same tag and adds no row |
| TagService.Create | app/Services/TagService.php:24-31 | the tables change exactly as FirstOrCreate says |
| TagService.Update | app/Services/TagService.php:36-45 | only the tag's name changes |
| TagService.WithoutTag | app/Services/TagService.php:54-55 | removes exactly the pivot rows of that tag |
| TagService.Delete | app/Services/TagService.php:50-60 | deletes the tag and its pivot rows exactly when no other user's task carries it; otherwise nothing changes |
| TagService.AttachToTask | app/Services/TagService.php:73-80 | the task's tags become exactly the named tags, each name existing afterwards; old tags keep their names and other tasks keep their tags |
| TagService.GrownByStep | app/Services/TagService.php:75-77 | one find-or-create step keeps every old tag and adds at most a tag for a name no tag had |
| TagService.FindOrCreateAll | app/Services/TagService.php:75-77 | yields one tag per name, in order, each carrying that name; old tags unchanged; new tags only for names no tag had |
| TagService.DetachFromTask | app/Services/TagService.php:85-88 | removes only that task–tag association |
| TaskPolicy.Status | app/Policies/TaskPolicy.php:24-91 | allow is 200, deny is 403, the guest error is 401 |
| TaskPolicy.ViewAny | app/Policies/TaskPolicy.php:16-19 | always allows |
| TaskPolicy.View | app/Policies/TaskPolicy.php:24-31 | guests get 401; others are allowed exactly on their own tasks and otherwise get the default denial |
| TaskPolicy.Create | app/Policies/TaskPolicy.php:36-43 | guests get 401; every other user is allowed |
| TaskPolicy.OwnerOnly | app/Policies/TaskPolicy.php:48-91 | guests get 401; other users are allowed exactly on their own tasks and otherwise get the operation's denial message |
| TaskPolicy.Update | app/Policies/TaskPolicy.php:48-59 | as OwnerOnly with 'update' |
| TaskPolicy.Delete | app/Policies/TaskPolicy.php:64-75 | as OwnerOnly with 'delete' |
| TaskPolicy.Complete | app/Policies/TaskPolicy.php:80-91 | as OwnerOnly with 'complete' |
| TaskPolicy.GuestIsUnauthorized | app/Policies/TaskPolicy.php:26-28 | a guest gets 401 from every per-task ability, even on the guest's own task |
| TaskPolicy.OwnerDecides | app/Policies/TaskPolicy.php:24-91 | for a non-guest, each ability allows exactly on the user's own tasks |
| PreventGuestActions.Handle | app/Http/Middleware/PreventGuestActions.php:17-30 | no user or a non-guest is forwarded to the next handler; a guest gets 401 JSON or a redirect back with an error flash, and the next handler is not called |
| PreventGuestActions.NonGuestIgnoresFormat | app/Http/Middleware/PreventGuestActions.php:19-29 | for a non-guest the response does not depend on whether JSON is expected |
| TaskController.RestoreIsGuestBlocked | routes/api.php:34-46 | archive and restore sit behind the guest gate; index does not |
| TaskController.DropBlank | app/Http/Controllers/Api/TaskController.php:27-29 | exactly the values that are null or '' are dropped |
| TaskController.IndexFilters | app/Http/Controllers/Api/TaskController.php:32-37 | sortBy defaults to created_at and sortDirection to desc; every other key is kept |
| TaskController.IndexDefaultsSelectSameRows | app/Http/Controllers/Api/TaskController.php:32-39 | filling in the defaults does not change which tasks are selected |
| TaskController.IndexDefaultsSortTheSame | app/Http/Controllers/Api/TaskController.php:32-39 | filling in the defaults does not change the normalised sort or page |
| TaskController.IndexPage | app/Http/Controllers/Api/TaskController.php:23-42 | index returns the requested page (intval of the page, at least 1) of the tasks the blank-free query selects, ten per page, sorted by the normalised column and direction; the defaults it fills in change neither the rows nor the sort |
| TaskController.Gate | app/Http/Controllers/Api/TaskController.php:55-56 | a missing task gives 404 before any policy check; otherwise the policy's refusal, or nothing when it allows |
| TaskController.LookupBeforeAuthorize | app/Http/Controllers/Api/TaskController.php:55-56 | for a signed-in user the lookup comes first: a missing task gives 404, another user's task 403, the owner's task passes |
| TaskController.Endpoint | routes/api.php:33-46 | every gated action runs behind the guest gate: a guest gets its 401 or redirect, anyone else the controller's answer; index is never gated |
| TaskController.GuestStoppedBeforeAction | app/Http/Middleware/PreventGuestActions.php:19-29 | a guest never reaches a gated action: the answer is the gate's whatever the controller would have said, so no 404, 422 or policy message |
| TaskController.ShowTask | app/Http/Controllers/Api/TaskController.php:53-59 | shows exactly the non-guest user's own visible tasks; otherwise the gate's answer |
| TaskController.StoreTask | app/Http/Controllers/Api/TaskController.php:44-51 | guests get 401 and nothing changes; otherwise the whole state changes exactly as TaskService.Create states |
| TaskController.UpdateTask | app/Http/Controllers/Api/TaskController.php:61-68 | invalid input gives its error fields; then lookup and authorization; a refusal changes nothing; only then the whole state changes exactly as TaskService.Update states |
| TaskController.DestroyTask | app/Http/Controllers/Api/TaskController.php:70-77 | lookup and authorization before the soft delete; a refusal changes nothing; success marks the row deleted and removes its attachments' files, and nothing else |
| TaskController.CompleteTask | app/Http/Controllers/Api/TaskController.php:79-86 | lookup and authorization before toggling completion; a refusal changes nothing; success changes only that task's completed_at |
| TaskController.IncompleteTask | app/Http/Controllers/Api/TaskController.php:88-94 | the same toggle as complete, so an unfinished task becomes completed; only that task's completed_at changes |
| TaskController.ArchiveAnswer | app/Http/Controllers/Api/TaskController.php:96-108 | as written: archive and restore answer Ok for any visible task, whoever owns it |
| TaskController.ArchiveSkipsOwnership | app/Http/Controllers/Api/TaskController.php:96-108 | a user can archive another user's task although the policy would refuse the update |
| TaskController.ArchiveTask | app/Http/Controllers/Api/TaskController.php:96-108 | as written: the service toggle runs with no ownership check, changing only that task's archived_at |
| TaskController.OwnArchiveAnswer | app/Policies/TaskPolicy.php:48-59 | corrected: archive answers Ok exactly for the non-guest owner and otherwise the update policy's refusal |
| TaskController.ArchiveOwnTask | app/Http/Controllers/Api/TaskController.php:96-108 | corrected: authorizes like update before toggling; a refusal changes nothing, success changes only that task's archived_at |
| TaskController.OwnArchiveRefusesOthers | app/Http/Controllers/Api/TaskController.php:96-108 | corrected: another user's task is refused with 401 or 403 |
| AuthService.LoginStatus | app/Services/AuthService.php:28-55 | unknown email is 404, bad credentials 422, success 200 |
| AuthService.LoginMessage | app/Services/AuthService.php:33-45 | the two failure messages |
| AuthService.FirstWithEmail | app/Services/AuthService.php:31 | the first user with that email, or none |
| AuthService.Login | app/Services/AuthService.php:28-55 | email not found exactly when no user has it; success returns that user only when the credentials pass |
| AuthService.UnknownEmailIgnoresPassword | app/Services/AuthService.php:31-38 | an unknown email fails whatever the password |
| AuthService.GuestUser | app/Services/AuthService.php:59-64 | a guest is 'Guest_' + 8 characters, 'guest_' + 8 characters + '@example.com', with a 20-character password |
| AuthService.Accounts.AddUser | app/Services/AuthService.php:14-25 | appends the user and issues one new token for it |
| AuthService.Accounts.Register | app/Services/AuthService.php:12-26 | stores a non-guest user with the given name, email and password and returns it with a fresh token |
| AuthService.Accounts.SignIn | app/Services/AuthService.php:28-55 | the outcome is Login's; a token is issued exactly on success; users never change |
| AuthService.Accounts.Guest | app/Services/AuthService.php:57-72 | stores GuestUser and returns it with a fresh guest token |
| AuthService.Accounts.Logout | app/Services/AuthService.php:74-77 | revokes only the current token |
| TaskUpdateRequest.Errors | app/Http/Requests/Task/TaskUpdateRequest.php:22-34 | each field is reported exactly when its rule fails |
| TaskUpdateRequest.Uploads | app/Http/Requests/Task/TaskUpdateRequest.php:31-32 | one upload per submitted file, with its name, MIME type and size |
| TaskUpdateRequest.Validate | app/Http/Requests/Task/TaskUpdateRequest.php:22-34 | input is invalid exactly when some rule fails; valid data carries the input's title, description, priority, parsed due date (not before today), tag strings and uploads, each absent exactly when its field is |
| TaskUpdateRequest.EmptyTagListIsGiven | app/Http/Requests/Task/TaskUpdateRequest.php:29-30 | an empty tag array is kept as an empty list, which clears tags on update |
| TagUpdateRequest.PassesMakesNameFree | app/Http/Requests/Tag/TagUpdateRequest.php:14-19 | a name that passes is non-empty, at most 50 characters and used by no other tag |
| TagUpdateRequest.UniqueName | app/Http/Requests/Tag/TagUpdateRequest.php:14-19 | unique:tags,name,id holds exactly when every tag with that name is the routed one |
| TagUpdateRequest.Passes | app/Http/Requests/Tag/TagUpdateRequest.php:14-19 | a passing name is a present, non-empty string of at most 50 characters that is unique apart from the routed tag; a missing or empty name fails |
| TagUpdateRequest.KeepingOwnNamePasses | app/Http/Requests/Tag/TagUpdateRequest.php:17 | keeping the routed tag's current name passes |
| TagUpdateRequest.TakenNameFails | app/Http/Requests/Tag/TagUpdateRequest.php:17 | a name another tag has fails |
| FormInput.Strings | app/Http/Requests/Task/TaskUpdateRequest.php:29-30 | the validated tag strings in order |
| Js.FindIndex | resources/js/store/modules/tasks.js:46 | the first index satisfying the test, or -1 |
| Js.Find | resources/js/store/modules/tasks.js:33 | the first element satisfying the test, or undefined |
| Js.Filter | resources/js/store/modules/tasks.js:52 | keeps exactly the elements passing the test, in order |
| Js.FilterConcat | resources/js/store/modules/tasks.js:52 | filtering distributes over concatenation |
| Js.FilterSplits | resources/js/store/modules/tasks.js:34-35 | filtering by a test and by its negation splits the list |
| Js.Spread | resources/js/store/modules/tasks.js:60-65 | object spread: the new keys win and all old keys are kept |
| Js.ErrorText | resources/js/store/modules/tasks.js:91 | the server's message when it has one, otherwise the fallback |
| ClientTasksStore.IdOf | resources/js/store/modules/tasks.js:46 | only a task record has an id; an envelope's id is undefined |
| ClientTasksStore.Replaced | resources/js/store/modules/tasks.js:45-50 | replacement keeps the length |
| ClientTasksStore.ReplacedAt | resources/js/store/modules/tasks.js:45-50 | with no matching id the list is unchanged; otherwise the first match is replaced at its index |
| ClientTasksStore.EnvelopeUpdateIsNoOp | resources/js/store/modules/tasks.js:163-181 | as written: committing the response envelope changes no task |
| ClientTasksStore.RecordUpdateApplies | resources/js/store/modules/tasks.js:45-50 | corrected: committing the task record replaces its entry |
| ClientTasksStore.ToggleEndpoint | resources/js/store/modules/tasks.js:150-161 | a completed task is posted to incomplete, any other to complete |
| ClientTasksStore.TasksState.TaskById | resources/js/store/modules/tasks.js:33 | the first task with that id, or undefined |
| ClientTasksStore.TasksState.ArchivedActivePartition | resources/js/store/modules/tasks.js:34-35 | the archived and active getters are disjoint and together make up the list |
| ClientTasksStore.TasksState.ArchivedTasks | resources/js/store/modules/tasks.js:34 | exactly the held tasks with a truthy archived_at |
| ClientTasksStore.TasksState.ActiveTasks | resources/js/store/modules/tasks.js:35 | exactly the held tasks without a truthy archived_at |
| ClientTasksStore.TasksState.SetTasks | resources/js/store/modules/tasks.js:39-41 | replaces the list; nothing else changes |
| ClientTasksStore.TasksState.AddTask | resources/js/store/modules/tasks.js:42-44 | puts the task first and shifts the others back by one |
| ClientTasksStore.TasksState.UpdateTask | resources/js/store/modules/tasks.js:45-50 | replaces the first task with that id in place |
| ClientTasksStore.TasksState.RemoveTask | resources/js/store/modules/tasks.js:51-53 | removes every task with that id and keeps the rest in order |
| ClientTasksStore.TasksState.SetPagination | resources/js/store/modules/tasks.js:60-62 | overwrites only the supplied pagination keys |
| ClientTasksStore.TasksState.SetFilters | resources/js/store/modules/tasks.js:63-65 | overwrites only the supplied filter keys |
| ClientTasksStore.TasksState.FetchTasks | resources/js/store/modules/tasks.js:69-96 | requests the filters merged with the params and the page; on success stores the list and meta; always ends not loading |
| ClientTasksStore.TasksState.CreateTask | resources/js/store/modules/tasks.js:98-115 | on success the new task goes first; on failure the error is set; always ends not loading |
| ClientTasksStore.TasksState.UpdateTaskAction | resources/js/store/modules/tasks.js:117-134 | on success the task is replaced in place; always ends not loading |
| ClientTasksStore.TasksState.DeleteTask | resources/js/store/modules/tasks.js:136-148 | on success the task is removed; always ends not loading |
| ClientTasksStore.TasksState.CompleteTask | resources/js/store/modules/tasks.js:150-161 | posts to the toggle endpoint, then refetches; a failed patch rejects and changes nothing; a failed refetch records the fetch error and rejects with its message or the toggle fallback; a successful one stores the tasks and the pagination |
| ClientTasksStore.TasksState.ArchiveTask | resources/js/store/modules/tasks.js:163-181 | as written: commits the response envelope |
| ClientTasksStore.TasksState.ArchiveTaskUnwrapped | resources/js/store/modules/tasks.js:163-181 | corrected: commits the task record, so its entry is replaced |
| ClientTasksStore.TasksState.UpdateFilters | resources/js/store/modules/tasks.js:183-187 | merges the filters and refetches from page 1; on success stores the tasks and the meta over page 1; on failure keeps the tasks, records the error and rejects |
| ClientTasksStore.TasksState.DownloadAttachment | resources/js/store/modules/tasks.js:189-215 | sets or clears the error; always ends not loading; the task list is untouched |
| ClientTasksStore.TasksState.SetPage | resources/js/store/modules/tasks.js:217-219 | sets only the current page; tasks, filters, loading and error are unchanged |
| ClientTagsStore.WithTag | resources/js/store/modules/tags.js:23-28 | appends only when no tag has the same id |
| ClientTagsStore.WithTagProperties | resources/js/store/modules/tags.js:23-28 | ids stay unique, repeating the add changes nothing, and the id is present afterwards |
| ClientTagsStore.Replaced | resources/js/store/modules/tags.js:29-34 | the first tag with that id is replaced in place; no-op when absent |
| ClientTagsStore.TagsState.TagById | resources/js/store/modules/tags.js:16 | the first tag with that id, or undefined |
| ClientTagsStore.TagsState.SetTags | resources/js/store/modules/tags.js:20-22 | replaces the whole list |
| ClientTagsStore.TagsState.AddTag | resources/js/store/modules/tags.js:23-28 | the list becomes WithTag of the old list |
| ClientTagsStore.TagsState.UpdateTag | resources/js/store/modules/tags.js:29-34 | the list becomes Replaced of the old list |
| ClientTagsStore.TagsState.RemoveTag | resources/js/store/modules/tags.js:35-37 | removes every tag with that id and keeps the others in order |
| ClientTagsStore.TagsState.FetchTags | resources/js/store/modules/tags.js:47-60 | on success stores the tags, on failure sets the error; always ends not loading |
| ClientAuthStore.InitialToken | resources/js/store/modules/auth.js:8 | the initial token is the stored one, or null |
| ClientAuthStore.StoredAfter | resources/js/store/modules/auth.js:22-29 | a truthy token is written to storage, a falsy one removed; other keys stay |
| ClientAuthStore.AuthState.InitiallyAuthenticated | resources/js/store/modules/auth.js:8-15 | a fresh store is authenticated exactly when a non-empty token was stored |
| ClientAuthStore.AuthState.IsAuthenticated | resources/js/store/modules/auth.js:15 | `!!token`: authenticated exactly when the token is present and not empty |
| ClientAuthStore.AuthState.SetToken | resources/js/store/modules/auth.js:22-29 | sets the token in state and updates storage as StoredAfter says |
| ClientAuthStore.AuthState.ClearAuth | resources/js/store/modules/auth.js:39-44 | nulls token, user and error, removes the stored token, and leaves the store unauthenticated |
| ClientAuthStore.AuthState.SignIn | resources/js/store/modules/auth.js:48-99 | on success stores token and user; on failure sets the error and keeps the session; always ends not loading |
| ClientAuthStore.AuthState.Logout | resources/js/store/modules/auth.js:101-112 | clears auth and ends not loading even when the request fails |
| ClientAuthStore.AuthState.CheckAuth | resources/js/store/modules/auth.js:114-127 | does nothing without a token; stores the user on success, leaving the error; on failure clears token, user and error and removes the stored token |
| Router.Lookup | resources/js/router/index.js:7-26 | the route table entry for a path, or none |
| Router.Guard | resources/js/router/index.js:36-41 | an auth-only target without auth goes to /login, a guest-only target with auth goes to /, everything else proceeds |
| Router.BeforeEach | resources/js/router/index.js:33-43 | the registered hook sends an auth-only target without a session to /login, a guest-only target with a session to /, and lets everything else through |
| Router.OriginIgnored | resources/js/router/index.js:33-35 | the decision does not depend on the origin route |
| Router.NoWrongRedirect | resources/js/router/index.js:7-43 | an authenticated user is never sent to /login and an unauthenticated one never to / |

## Left out

- File store I/O (`Storage::delete`, `store`, `url`, `download`) is not modelled. The file store is a set of paths, and the path each upload is stored under is a parameter.
- `formatted_size` is computed with floating-point logarithms and rounding, so it is not modelled.
- `DB::transaction` atomicity is not modelled separately. Each operation is one atomic state change, and there is no concurrency.
- The retention job, the console scheduler, TaskObserver and TaskAttachmentController are not part of this model. They only do I/O, or call code that is not shown.
- JSON resources (TaskResource, AttachmentResource), the service providers, the bootstrap files and the axios request interceptor only shape requests and responses or wire things together, so they are not modelled.
- The axios response interceptor (resources/js/bootstrap.js:21-32) is not modelled. On any 401 it removes the stored token and, when a router is registered on `window`, navigates to /login. Meanwhile `ClientAuthStore.AuthState.token` stays set, so the store still reports a session until the page is reloaded. The file that registers the router is not part of this model.
- The network layer is not modelled. Every store action receives the server's reply (success with a body, or failure with an optional message) as a parameter.
- Password hashing, `Auth::attempt`, token plaintext and `Str::random` are parameters: the `attempt` function, the token ids, and the random strings of a guest.
- Date parsing and `now()` are parameters. Dates and timestamps are integers.
- The `updated_at` columns of tasks and attachments are not modelled. `Schema.Task` has `createdAt` but no `updatedAt`, so the model does not say that Eloquent's `update`, `toggleComplete`, `toggleArchive`, `delete` and the builder update in `reorder` (app/Services/TaskService.php:153-162) also set `updated_at` to the current time, which TaskResource exposes (app/Http/Resources/TaskResource.php:27).
- TaskService.List: the database's sort is not modelled. The ordered selection is a parameter, required to hold each selected task exactly once. The priority enum order and null ordering are not fixed.
- TaskService.List: `last_page` paginator arithmetic is not modelled.
- TaskService.List: the title search is modelled as a literal, case-sensitive substring test (`MatchesFilters`). SQL LIKE wildcards (`%` and `_` inside the search term) and the database collation are not modelled. The collation can make the search and the priority equality case-insensitive. So with a term such as "a_c", or under a case-insensitive collation, the database can list tasks the model leaves out.
- TagService.Search: SQL LIKE wildcards and collation case-folding are not modelled. The query is a plain substring, and the first ten by id stand for the database's order.
- Php.IntVal: exponent and float forms, and saturation at the integer limits, are not modelled.
- TaskUpdateRequest.Errors: element errors (`tags.N`, `attachments.N`) are reported under the array's own key.
- TaskUpdateRequest.Errors: the model assumes Laravel's global TrimStrings and ConvertEmptyStringsToNull middleware, so an empty string counts as absent.
- TaskUpdateRequest.Errors: file extensions come from the upload's guessed extension. Content sniffing is not modelled.
- TagUpdateRequest.UniqueName: database collation is not modelled, so names compare exactly.
- TagService.Delete: the task_tag migration is not part of this model. Removing the tag's pivot rows on delete is the assumed cascade.
- TaskStoreRequest is not part of this model. `StoreTask` takes already validated data.
- The tag controller's routes are not registered in routes/api.php, so no tag endpoint is modelled. Only the tag service is.
- ClientAuthStore.AuthState.SignIn: loginAsGuest commits the user before the token. Only the final state is modelled, and it is the same.
- ClientTasksStore.TasksState.DownloadAttachment: the blob, DOM and object-URL work is not modelled, and neither is the request URL. Only the loading and error handling is.
- TaskService.NewAttachments: it states the new rows' ids. Each row's content is stated by StoredAttachment and by the loop lemma NewAttachmentsSnoc.

## Findings

| source | as written | input that shows it | evidently intended | confidence | as-written member | corrected member |
|---|---|---|---|---|---|---|
| resources/js/store/modules/tasks.js:163-181 | archiveTask and restoreTask commit `response.data`, the `{data: …}` resource envelope, to UPDATE_TASK; the envelope has no `id`, so no task matches and the list is unchanged | a list holding task 7 unarchived; archiving 7 returns `{data: {id: 7, archived_at: …}}`; the list still shows 7 unarchived | commit `response.data.data`, the task record, so its entry is replaced | medium, not executed | ClientTasksStore.TasksState.ArchiveTask, ClientTasksStore.EnvelopeUpdateIsNoOp | ClientTasksStore.TasksState.ArchiveTaskUnwrapped, ClientTasksStore.RecordUpdateApplies |
| app/Http/Controllers/Api/TaskController.php:96-108 | archive and restore call the service with no authorize step, and the service looks the task up by id only | user 2 (not a guest) archives task 7 owned by user 1: the answer is Ok(7) and task 7 is archived, while the update policy gives 403 | authorize like update before toggling | medium, not executed | TaskController.ArchiveAnswer, TaskController.ArchiveSkipsOwnership | TaskController.OwnArchiveAnswer, TaskController.ArchiveOwnTask, TaskController.OwnArchiveRefusesOthers |

=== FILE: attachment_model.dfy ===
/**
 * The Attachment model's derived attributes (app/Models/Attachment.php) and
 * the MIME classification the task service applies when it stores an
 * upload (app/Services/TaskService.php, determineFileType).
 */
module AttachmentModel {
  import opened Schema
  import Php

  /** `is_image`. */
  function IsImage(a: Attachment): (r: bool)
    ensures r <==> FileTypeName(a.fileType) == "image"
  {
    a.fileType == Image
  }

  /** `is_video`. */
  function IsVideo(a: Attachment): (r: bool)
    ensures r <==> FileTypeName(a.fileType) == "video"
  {
    a.fileType == Video
  }

  /** `is_document`. */
  function IsDocument(a: Attachment): (r: bool)
    ensures r <==> FileTypeName(a.fileType) == "document"
  {
    a.fileType == Document
  }

  /** Exactly one of the three kind flags holds for every attachment. */
  lemma ExactlyOneKindFlag(a: Attachment)
    ensures IsImage(a) || IsVideo(a) || IsDocument(a)
    ensures !(IsImage(a) && IsVideo(a)) && !(IsImage(a) && IsDocument(a)) && !(IsVideo(a) && IsDocument(a))
  {
  }

  /** The index just past the last occurrence of `c` in `s`, or 0 when `c` does not occur. */
  function AfterLast(s: string, c: char): (k: nat)
    ensures k <= |s|
    ensures k > 0 ==> s[k - 1] == c
    ensures forall i :: k <= i < |s| ==> s[i] != c
    decreases |s|
  {
    if s == [] then 0
    else if s[|s| - 1] == c then |s|
    else AfterLast(s[..|s| - 1], c)
  }

  /** `pathinfo($name, PATHINFO_BASENAME)`: the part after the last '/'. */
  function BaseName(name: string): (r: string)
    ensures forall i :: 0 <= i < |r| ==> r[i] != '/'
  {
    name[AfterLast(name, '/')..]
  }

  /**
   * `pathinfo($name, PATHINFO_EXTENSION)`: the text after the last '.' of
   * the base name, or "" when the base name has no '.'.
   */
  function Extension(name: string): (r: string)
    ensures forall i :: 0 <= i < |r| ==> r[i] != '.' && r[i] != '/'
    ensures (forall i :: 0 <= i < |BaseName(name)| ==> BaseName(name)[i] != '.') ==> r == ""
    ensures r != "" ==> exists k :: 0 < k <= |name| && name[k - 1] == '.' && name[k..] == r
    ensures var b := BaseName(name);
            (exists i :: 0 <= i < |b| && b[i] == '.') ==> |r| < |b| && b[|b| - |r| - 1] == '.' && r == b[|b| - |r|..]
  {
    var base := BaseName(name);
    var k := AfterLast(base, '.');
    if k == 0 then "" else base[k..]
  }

  /** The `extension` accessor of an attachment row. */
  function ExtensionOf(a: Attachment): string {
    Extension(a.fileName)
  }

  /** determineFileType: 'image/...' is an image, 'video/...' a video, anything else a document. */
  function DetermineFileType(mime: string): (r: FileType)
    ensures r == Image <==> Php.StartsWith(mime, "image/")
    ensures r == Video <==> !Php.StartsWith(mime, "image/") && Php.StartsWith(mime, "video/")
  {
    if Php.StartsWith(mime, "image/") then Image
    else if Php.StartsWith(mime, "video/") then Video
    else Document
  }

  /** "image/" and "video/" never both prefix a MIME type, so the order of the two tests does not matter. */
  lemma MimeClassesDisjoint(mime: string)
    ensures !(Php.StartsWith(mime, "image/") && Php.StartsWith(mime, "video/"))
  {
    if Php.StartsWith(mime, "image/") {
      assert mime[0] == 'i';
    }
  }
}

=== FILE: auth_service.dfy ===
/**
 * The account service (app/Services/AuthService.php): registration, the
 * login decision, disposable guest accounts and token revocation, over a
 * user table and a personal-access-token table.
 */
module AuthService {
  import opened Wrappers
  import opened Schema

  type TokenId = int

  /** A personal access token row: its owner and the name it was issued under. */
  datatype Token = Token(userId: UserId, name: string)

  /** The three ways a login ends. */
  datatype LoginOutcome = EmailNotFound | BadCredentials | LoggedIn(user: User)

  /** The HTTP status of a login outcome. */
  function LoginStatus(o: LoginOutcome): (code: int)
    ensures code == 404 <==> o.EmailNotFound?
    ensures code == 422 <==> o.BadCredentials?
    ensures code == 200 <==> o.LoggedIn?
  {
    match o
    case EmailNotFound => 404
    case BadCredentials => 422
    case LoggedIn(_) => 200
  }

  /** The validation message attached to the `email` field of a failed login. */
  function LoginMessage(o: LoginOutcome): (m: Option<string>)
    ensures m.None? <==> o.LoggedIn?
    ensures o.EmailNotFound? ==> m == Some("No account found with the provided email address.")
    ensures o.BadCredentials? ==> m == Some("The provided credentials are incorrect.")
  {
    match o
    case EmailNotFound => Some("No account found with the provided email address.")
    case BadCredentials => Some("The provided credentials are incorrect.")
    case LoggedIn(_) => None
  }

  /** `User::where('email', $email)->first()`: the position of the first user with that email. */
  function FirstWithEmail(users: seq<User>, email: string): (r: Option<nat>)
    ensures r.None? <==> forall i :: 0 <= i < |users| ==> users[i].email != email
    ensures r.Some? ==> r.value < |users| && users[r.value].email == email
    ensures r.Some? ==> forall j :: 0 <= j < r.value ==> users[j].email != email
  {
    if users == [] then None
    else if users[0].email == email then Some(0)
    else
      match FirstWithEmail(users[1..], email)
      case None => None
      case Some(k) => Some(k + 1)
  }

  /**
   * `login`: 404 when no user has the email (the password is not looked at),
   * 422 when `attempt` (the framework's credential check, here a parameter)
   * rejects the password, otherwise the user found by email.
   */
  function Login(users: seq<User>, email: string, password: string, attempt: (User, string) -> bool): (r: LoginOutcome)
    ensures r.EmailNotFound? <==> forall u :: u in users ==> u.email != email
    ensures r.LoggedIn? ==> r.user in users && r.user.email == email && attempt(r.user, password)
    ensures !r.EmailNotFound? ==> var i := FirstWithEmail(users, email).value;
              r == (if attempt(users[i], password) then LoggedIn(users[i]) else BadCredentials)
  {
    match FirstWithEmail(users, email)
    case None => EmailNotFound
    case Some(i) => if attempt(users[i], password) then LoggedIn(users[i]) else BadCredentials
  }

  /** An unknown email fails the same way whatever password and checker are used. */
  lemma UnknownEmailIgnoresPassword(users: seq<User>, email: string, p1: string, p2: string,
                                    a1: (User, string) -> bool, a2: (User, string) -> bool)
    requires Login(users, email, p1, a1).EmailNotFound?
    ensures Login(users, email, p2, a2).EmailNotFound?
  {
  }

  /** The shape of a guest user built from three random strings. */
  function GuestUser(id: UserId, r8a: string, r8b: string, r20: string): (u: User)
    requires |r8a| == 8 && |r8b| == 8 && |r20| == 20
    ensures u.isGuest && u.id == id
    ensures |u.name| == 14 && u.name[..6] == "Guest_" && u.name[6..] == r8a
    ensures |u.email| == 26 && u.email[..6] == "guest_" && u.email[6..14] == r8b && u.email[14..] == "@example.com"
    ensures |u.password| == 20
  {
    User(id, "Guest_" + r8a, "guest_" + r8b + "@example.com", r20, true)
  }

  class Accounts {
    /** The user table in storage order. */
    var users: seq<User>
    var tokens: map<TokenId, Token>
    var nextUserId: UserId
    var nextTokenId: TokenId

    ghost predicate Valid()
      reads this
    {
      && 0 < nextUserId && 0 < nextTokenId
      && (forall i :: 0 <= i < |users| ==> 0 < users[i].id < nextUserId)
      && (forall k :: k in tokens ==> 0 < k < nextTokenId)
    }

    constructor ()
      ensures Valid()
      ensures users == [] && tokens == map[] && nextUserId == 1 && nextTokenId == 1
    {
      users, tokens, nextUserId, nextTokenId := [], map[], 1, 1;
    }

    /** Stores a user and issues it a token under `name`. */
    method AddUser(u: User, tokenName: string) returns (token: TokenId)
      requires Valid() && u.id == nextUserId
      modifies this
      ensures Valid()
      ensures users == old(users) + [u] && nextUserId == old(nextUserId) + 1
      ensures token == old(nextTokenId) && token !in old(tokens)
      ensures tokens == old(tokens)[token := Token(u.id, tokenName)] && nextTokenId == old(nextTokenId) + 1
    {
      users := users + [u];
      nextUserId := nextUserId + 1;
      token := nextTokenId;
      tokens := tokens[token := Token(u.id, tokenName)];
      nextTokenId := nextTokenId + 1;
    }

    /** `register`: a new non-guest user with the given details, and a fresh token. */
    method Register(name: string, email: string, password: string) returns (user: User, token: TokenId)
      requires Valid()
      modifies this
      ensures Valid()
      ensures user == User(old(nextUserId), name, email, password, false)
      ensures users == old(users) + [user]
      ensures token !in old(tokens) && tokens == old(tokens)[token := Token(user.id, "auth_token")]
      ensures nextUserId == old(nextUserId) + 1 && nextTokenId == old(nextTokenId) + 1
    {
      user := User(nextUserId, name, email, password, false);
      token := AddUser(user, "auth_token");
    }

    /** `login`: the outcome of `Login`; a token is issued exactly on success. */
    method SignIn(email: string, password: string, attempt: (User, string) -> bool) returns (outcome: LoginOutcome, token: Option<TokenId>)
      requires Valid()
      modifies this
      ensures Valid()
      ensures outcome == Login(old(users), email, password, attempt)
      ensures token.Some? <==> outcome.LoggedIn?
      ensures users == old(users) && nextUserId == old(nextUserId)
      ensures token.None? ==> tokens == old(tokens) && nextTokenId == old(nextTokenId)
      ensures token.Some? ==> token.value !in old(tokens) && tokens == old(tokens)[token.value := Token(outcome.user.id, "auth_token")]
      ensures token.Some? ==> nextTokenId == old(nextTokenId) + 1
    {
      outcome := Login(users, email, password, attempt);
      token := None;
      if outcome.LoggedIn? {
        var k := nextTokenId;
        tokens := tokens[k := Token(outcome.user.id, "auth_token")];
        nextTokenId := nextTokenId + 1;
        token := Some(k);
      }
    }

    /** `guest`: a new guest user from three random strings, with a 'guest-token'. */
    method Guest(r8a: string, r8b: string, r20: string) returns (user: User, token: TokenId)
      requires Valid() && |r8a| == 8 && |r8b| == 8 && |r20| == 20
      modifies this
      ensures Valid()
      ensures user == GuestUser(old(nextUserId), r8a, r8b, r20)
      ensures users == old(users) + [user]
      ensures token !in old(tokens) && tokens == old(tokens)[token := Token(user.id, "guest-token")]
      ensures nextUserId == old(nextUserId) + 1 && nextTokenId == old(nextTokenId) + 1
    {
      user := GuestUser(nextUserId, r8a, r8b, r20);
      token := AddUser(user, "guest-token");
    }

    /** `logout`: revokes the token the request came with and no other. */
    method Logout(current: TokenId)
      requires Valid()
      modifies this
      ensures Valid()
      ensures current !in tokens
      ensures forall k :: k != current ==> (k in tokens <==> k in old(tokens)) && (k in tokens ==> tokens[k] == old(tokens)[k])
      ensures users == old(users) && nextUserId == old(nextUserId) && nextTokenId == old(nextTokenId)
    {
      tokens := tokens - {current};
    }
  }
}

=== FILE: client_auth_store.dfy ===
/**
 * The client's authentication store (resources/js/store/modules/auth.js):
 * the bearer token mirrored into browser storage, the current user, and the
 * actions that sign in, sign out and re-check the session.
 */
module ClientAuthStore {
  import opened Wrappers
  import Js

  /** The user object the server returns. */
  datatype JsUser = JsUser(id: int, name: string, email: string, isGuest: bool)

  /** The body of a sign-in response. */
  datatype Session = Session(token: Option<string>, user: JsUser)

  /** The storage key of the token. */
  const TokenKey: string := "token"

  /** `localStorage.getItem('token') || null`: the stored token when it is truthy. */
  function InitialToken(storage: map<string, string>): (r: Option<string>)
    ensures r.Some? <==> TokenKey in storage && storage[TokenKey] != ""
    ensures r.Some? ==> r.value == storage[TokenKey]
  {
    if TokenKey in storage && storage[TokenKey] != "" then Some(storage[TokenKey]) else None
  }

  /** The storage after SET_TOKEN: a truthy token is written, anything else removes the key. */
  function StoredAfter(storage: map<string, string>, token: Option<string>): (r: map<string, string>)
    ensures Js.Truthy(token) ==> TokenKey in r && r[TokenKey] == token.value
    ensures !Js.Truthy(token) ==> TokenKey !in r
    ensures forall k :: k != TokenKey ==> (k in r <==> k in storage) && (k in r ==> r[k] == storage[k])
  {
    if Js.Truthy(token) then storage[TokenKey := token.value] else storage - {TokenKey}
  }

  class AuthState {
    var token: Option<string>
    var user: Option<JsUser>
    var loading: bool
    var error: Option<string>
    /** The browser's localStorage. */
    var storage: map<string, string>

    /** The initial state, reading the token left in storage. */
    constructor (stored: map<string, string>)
      ensures token == InitialToken(stored) && storage == stored
      ensures user.None? && !loading && error.None?
    {
      token := InitialToken(stored);
      storage := stored;
      user, loading, error := None, false, None;
    }

    /** isAuthenticated: `!!state.token`. */
    function IsAuthenticated(): (r: bool)
      reads this
      ensures r <==> token.Some? && token.value != ""
    {
      Js.Truthy(token)
    }

    /** A freshly loaded store is authenticated exactly when storage holds a non-empty token. */
    lemma InitiallyAuthenticated(stored: map<string, string>)
      requires token == InitialToken(stored)
      ensures IsAuthenticated() <==> TokenKey in stored && stored[TokenKey] != ""
    {
    }

    /** SET_TOKEN: the state takes the token; storage keeps a truthy one and drops anything else. */
    method SetToken(t: Option<string>)
      modifies this
      ensures token == t && storage == StoredAfter(old(storage), t)
      ensures user == old(user) && loading == old(loading) && error == old(error)
    {
      token := t;
      storage := StoredAfter(storage, t);
    }

    /** CLEAR_AUTH: token, user and error are cleared and the stored token removed. */
    method ClearAuth()
      modifies this
      ensures token.None? && user.None? && error.None?
      ensures storage == old(storage) - {TokenKey}
      ensures loading == old(loading)
      ensures !IsAuthenticated()
    {
      token, user, error := None, None, None;
      storage := storage - {TokenKey};
    }

    /** register / login / loginAsGuest: on success the token and user are set, on failure the error. Loading ends false. */
    method SignIn(reply: Js.Reply<Session>, fallback: string) returns (ok: bool)
      modifies this
      ensures !loading
      ensures ok <==> reply.Success?
      ensures ok ==> token == reply.body.token && user == Some(reply.body.user) && error.None?
      ensures ok ==> storage == StoredAfter(old(storage), reply.body.token)
      ensures !ok ==> token == old(token) && user == old(user) && storage == old(storage)
      ensures !ok ==> error == Some(Js.ErrorText(reply.message, fallback))
    {
      loading, error := true, None;
      if reply.Success? {
        SetToken(reply.body.token);
        user := Some(reply.body.user);
        ok := true;
      } else {
        error := Some(Js.ErrorText(reply.message, fallback));
        ok := false;
      }
      loading := false;
    }

    /** logout: whatever the server answers, auth is cleared and loading ends false. */
    method Logout(reply: Js.Reply<()>) returns (ok: bool)
      modifies this
      ensures ok <==> reply.Success?
      ensures token.None? && user.None? && error.None? && !loading
      ensures storage == old(storage) - {TokenKey}
    {
      loading := true;
      ok := reply.Success?;
      ClearAuth();
      loading := false;
    }

    /** checkAuth: nothing without a token; otherwise the user is refreshed, or auth is cleared on failure. */
    method CheckAuth(reply: Js.Reply<JsUser>) returns (ok: bool)
      modifies this
      ensures !Js.Truthy(old(token)) ==> ok && token == old(token) && user == old(user) && error == old(error) &&
                                         storage == old(storage) && loading == old(loading)
      ensures Js.Truthy(old(token)) ==> !loading && (ok <==> reply.Success?)
      ensures Js.Truthy(old(token)) && reply.Success? ==> user == Some(reply.body) && token == old(token) && storage == old(storage) &&
                                                          error == old(error)
      ensures Js.Truthy(old(token)) && reply.Failed? ==> token.None? && user.None? && error.None? && storage == old(storage) - {TokenKey}
    {
      if !Js.Truthy(token) {
        return true;
      }
      loading := true;
      if reply.Success? {
        user := Some(reply.body);
        ok := true;
      } else {
        ClearAuth();
        ok := false;
      }
      loading := false;
    }
  }
}

=== FILE: client_tags_store.dfy ===
/**
 * The client's tag store (resources/js/store/modules/tags.js): the tag
 * list with its add-once, replace, remove and reset mutations, the lookup
 * getter, and the fetch action.
 */
module ClientTagsStore {
  import opened Wrappers
  import Js

  /** A tag as the client holds it. */
  datatype JsTag = JsTag(id: int, name: string)

  /** `t => t.id === id`. */
  function HasId(id: int): JsTag -> bool {
    (t: JsTag) => t.id == id
  }

  /** `t => t.id !== id`. */
  function LacksId(id: int): JsTag -> bool {
    (t: JsTag) => t.id != id
  }

  /** No two held tags share an id. */
  predicate UniqueIds(ts: seq<JsTag>) {
    forall i, j :: 0 <= i < j < |ts| ==> ts[i].id != ts[j].id
  }

  /** The list after ADD_TAG: appended only when no held tag has its id. */
  function WithTag(ts: seq<JsTag>, t: JsTag): (r: seq<JsTag>)
    ensures (forall x :: x in ts ==> x.id != t.id) ==> r == ts + [t]
    ensures (exists x :: x in ts && x.id == t.id) ==> r == ts
  {
    if Js.Find(ts, HasId(t.id)).None? then ts + [t] else ts
  }

  /** ADD_TAG keeps ids unique, and repeating it changes nothing. */
  lemma WithTagProperties(ts: seq<JsTag>, t: JsTag)
    ensures UniqueIds(ts) ==> UniqueIds(WithTag(ts, t))
    ensures WithTag(WithTag(ts, t), t) == WithTag(ts, t)
    ensures t.id in set x | x in WithTag(ts, t) :: x.id
  {
    var r := WithTag(ts, t);
    if forall x :: x in ts ==> x.id != t.id {
      assert r[|ts|] == t;
      assert t in r;
      assert forall i :: 0 <= i < |ts| ==> r[i] == ts[i];
    } else {
      var x :| x in ts && x.id == t.id;
    }
  }

  /** The list after UPDATE_TAG: the first tag with `u`'s id is replaced, if there is one. */
  function Replaced(ts: seq<JsTag>, u: JsTag): (r: seq<JsTag>)
    ensures |r| == |ts|
    ensures (forall i :: 0 <= i < |ts| ==> ts[i].id != u.id) ==> r == ts
    ensures forall i :: 0 <= i < |ts| && ts[i].id == u.id && (forall j :: 0 <= j < i ==> ts[j].id != u.id) ==> r == ts[i := u]
  {
    var i := Js.FindIndex(ts, HasId(u.id));
    assert forall k :: 0 <= k < |ts| && ts[k].id == u.id ==> HasId(u.id)(ts[k]);
    if i == -1 then ts else ts[i := u]
  }

  class TagsState {
    var tags: seq<JsTag>
    var loading: bool
    var error: Option<string>

    /** The store's initial state. */
    constructor ()
      ensures tags == [] && !loading && error.None?
    {
      tags, loading, error := [], false, None;
    }

    /** getTagById: the first tag with that id, or undefined. */
    function TagById(id: int): (r: Option<JsTag>)
      reads this
      ensures r.None? <==> forall t :: t in tags ==> t.id != id
      ensures r.Some? ==> r.value in tags && r.value.id == id
      ensures r.Some? ==> exists i :: 0 <= i < |tags| && tags[i] == r.value && forall j :: 0 <= j < i ==> tags[j].id != id
    {
      var r := Js.Find(tags, HasId(id));
      assert r.Some? ==> exists i :: 0 <= i < |tags| && tags[i] == r.value && forall j :: 0 <= j < i ==> !HasId(id)(tags[j]);
      r
    }

    /** SET_TAGS replaces the whole list. */
    method SetTags(ts: seq<JsTag>)
      modifies this
      ensures tags == ts && loading == old(loading) && error == old(error)
    {
      tags := ts;
    }

    /** ADD_TAG: `push` unless a tag with the same id is held. */
    method AddTag(t: JsTag)
      modifies this
      ensures tags == WithTag(old(tags), t)
      ensures loading == old(loading) && error == old(error)
    {
      var existing := Js.Find(tags, HasId(t.id));
      if existing.None? {
        tags := tags + [t];
      }
    }

    /** UPDATE_TAG: `splice` at the first tag with that id; no-op when absent. */
    method UpdateTag(u: JsTag)
      modifies this
      ensures tags == Replaced(old(tags), u)
      ensures loading == old(loading) && error == old(error)
    {
      var i := Js.FindIndex(tags, HasId(u.id));
      if i != -1 {
        tags := tags[i := u];
      }
    }

    /** REMOVE_TAG: every tag with that id goes, the others keep their order. */
    method RemoveTag(id: int)
      modifies this
      ensures tags == Js.Filter(old(tags), LacksId(id))
      ensures forall t :: t in tags <==> t in old(tags) && t.id != id
      ensures loading == old(loading) && error == old(error)
    {
      tags := Js.Filter(tags, LacksId(id));
    }

    /** fetchTags: stores the tags or the error; loading ends false either way. */
    method FetchTags(reply: Js.Reply<seq<JsTag>>) returns (ok: bool)
      modifies this
      ensures !loading
      ensures ok <==> reply.Success?
      ensures ok ==> tags == reply.body && error.None?
      ensures !ok ==> tags == old(tags) && error == Some(Js.ErrorText(reply.message, "Failed to fetch tags"))
    {
      loading, error := true, None;
      if reply.Success? {
        SetTags(reply.body);
        ok := true;
      } else {
        error := Some(Js.ErrorText(reply.message, "Failed to fetch tags"));
        ok := false;
      }
      loading := false;
    }
  }
}

=== FILE: client_tasks_store.dfy ===
/**
 * The client's task store (resources/js/store/modules/tasks.js): the task
 * list, loading flag, error, pagination and filters; the mutations that
 * change them in place; the getters; and the actions, with each server
 * request reduced to its reply.
 */
module ClientTasksStore {
  import opened Wrappers
  import Js

  /**
   * A task object as the client holds it, or a response body that wraps a
   * task resource under `data`.
   */
  datatype JsTask = Record(id: int, title: string, completedAt: Option<string>, archivedAt: Option<string>) | Envelope(data: JsTask)

  /** `task.id`: undefined (None) on a wrapper. */
  function IdOf(t: JsTask): (r: Option<int>)
    ensures r.Some? <==> t.Record?
  {
    if t.Record? then Some(t.id) else None
  }

  /** `task => task.id === u.id`. */
  function SameIdAs(u: JsTask): JsTask -> bool {
    t => IdOf(t) == IdOf(u)
  }

  /** `task => task.id === id`. */
  function HasId(id: int): JsTask -> bool {
    t => IdOf(t) == Some(id)
  }

  /** `task => task.id !== id`. */
  function LacksId(id: int): JsTask -> bool {
    t => IdOf(t) != Some(id)
  }

  /** `task => task.archived_at` (truthy). */
  function IsArchived(): JsTask -> bool {
    (t: JsTask) => t.Record? && Js.Truthy(t.archivedAt)
  }

  /** `task => !task.archived_at`. */
  function IsActive(): JsTask -> bool {
    (t: JsTask) => !(t.Record? && Js.Truthy(t.archivedAt))
  }

  /** The list after UPDATE_TASK: the first task with `u`'s id is replaced by `u`, if there is one. */
  function Replaced(ts: seq<JsTask>, u: JsTask): (r: seq<JsTask>)
    ensures |r| == |ts|
  {
    var i := Js.FindIndex(ts, SameIdAs(u));
    if i == -1 then ts else ts[i := u]
  }

  /** UPDATE_TASK keeps the length and every position but the first one with the id; with no such task it changes nothing. */
  lemma ReplacedAt(ts: seq<JsTask>, u: JsTask)
    ensures (forall i :: 0 <= i < |ts| ==> IdOf(ts[i]) != IdOf(u)) ==> Replaced(ts, u) == ts
    ensures forall i :: 0 <= i < |ts| && IdOf(ts[i]) == IdOf(u) ==>
              exists k :: 0 <= k <= i && Replaced(ts, u) == ts[k := u] && IdOf(ts[k]) == IdOf(u) &&
                          forall j :: 0 <= j < k ==> IdOf(ts[j]) != IdOf(u)
  {
    forall i | 0 <= i < |ts| && IdOf(ts[i]) == IdOf(u)
      ensures exists k :: 0 <= k <= i && Replaced(ts, u) == ts[k := u] && IdOf(ts[k]) == IdOf(u) &&
                          forall j :: 0 <= j < k ==> IdOf(ts[j]) != IdOf(u)
    {
      assert SameIdAs(u)(ts[i]);
      var k := Js.FindIndex(ts, SameIdAs(u));
      assert forall j :: 0 <= j < k ==> !SameIdAs(u)(ts[j]);
    }
  }

  /**
   * A wrapper has no id, so when every held task is a plain record an
   * UPDATE_TASK with a wrapper changes nothing.
   */
  lemma EnvelopeUpdateIsNoOp(ts: seq<JsTask>, t: JsTask)
    requires forall i :: 0 <= i < |ts| ==> ts[i].Record?
    ensures Replaced(ts, Envelope(t)) == ts
  {
    forall i | 0 <= i < |ts| ensures !SameIdAs(Envelope(t))(ts[i]) {
      assert IdOf(ts[i]).Some?;
    }
  }

  /** Committing the unwrapped record does replace the held task with that id. */
  lemma RecordUpdateApplies(ts: seq<JsTask>, t: JsTask, i: nat)
    requires t.Record? && i < |ts| && IdOf(ts[i]) == Some(t.id)
    requires forall j :: 0 <= j < |ts| && j != i ==> IdOf(ts[j]) != Some(t.id)
    ensures Replaced(ts, t) == ts[i := t]
  {
    assert SameIdAs(t)(ts[i]);
  }

  /** A listing response: the page's tasks and the paginator's meta. */
  datatype Listing = Listing(data: seq<JsTask>, currentPage: int, lastPage: int, total: int, perPage: int)

  /** The pagination keys a listing response supplies. */
  function MetaOf(l: Listing): map<string, int> {
    map["currentPage" := l.currentPage, "totalPages" := l.lastPage, "total" := l.total, "perPage" := l.perPage]
  }

  /** The endpoint completeTask calls: incomplete for a task with a truthy `completed_at`, complete otherwise. */
  datatype Endpoint = CompleteEndpoint(id: int) | IncompleteEndpoint(id: int)

  function ToggleEndpoint(t: JsTask): (e: Endpoint)
    requires t.Record?
    ensures e.id == t.id
    ensures e.IncompleteEndpoint? <==> Js.Truthy(t.completedAt)
  {
    if Js.Truthy(t.completedAt) then IncompleteEndpoint(t.id) else CompleteEndpoint(t.id)
  }

  class TasksState {
    var tasks: seq<JsTask>
    var loading: bool
    var error: Option<string>
    var pagination: map<string, int>
    var filters: map<string, string>

    /** The pagination always knows the current page. */
    ghost predicate Valid()
      reads this
    {
      "currentPage" in pagination
    }

    /** The store's initial state. */
    constructor ()
      ensures Valid()
      ensures tasks == [] && !loading && error.None?
      ensures pagination == map["currentPage" := 1, "totalPages" := 1, "perPage" := 10, "total" := 0]
      ensures filters == map["search" := "", "priority" := "", "status" := "", "dateFrom" := "", "dateTo" := "",
                             "sortBy" := "created_at", "sortDirection" := "desc"]
    {
      tasks, loading, error := [], false, None;
      pagination := map["currentPage" := 1, "totalPages" := 1, "perPage" := 10, "total" := 0];
      filters := map["search" := "", "priority" := "", "status" := "", "dateFrom" := "", "dateTo" := "",
                     "sortBy" := "created_at", "sortDirection" := "desc"];
    }

    // -- getters --

    /** getTaskById: the first task with that id, or undefined. */
    function TaskById(id: int): (r: Option<JsTask>)
      reads this
      ensures r.None? <==> forall t :: t in tasks ==> IdOf(t) != Some(id)
      ensures r.Some? ==> r.value in tasks && IdOf(r.value) == Some(id)
      ensures r.Some? ==> exists i :: 0 <= i < |tasks| && tasks[i] == r.value && forall j :: 0 <= j < i ==> IdOf(tasks[j]) != Some(id)
    {
      var r := Js.Find(tasks, HasId(id));
      assert r.Some? ==> HasId(id)(r.value);
      assert r.Some? ==> exists i :: 0 <= i < |tasks| && tasks[i] == r.value && forall j :: 0 <= j < i ==> !HasId(id)(tasks[j]);
      r
    }

    /** getArchivedTasks. */
    function ArchivedTasks(): (r: seq<JsTask>)
      reads this
      ensures forall t :: t in r <==> t in tasks && t.Record? && t.archivedAt.Some? && t.archivedAt.value != ""
      ensures |r| <= |tasks|
    {
      Js.Filter(tasks, IsArchived())
    }

    /** getActiveTasks. */
    function ActiveTasks(): (r: seq<JsTask>)
      reads this
      ensures forall t :: t in r <==> t in tasks && !(t.Record? && t.archivedAt.Some? && t.archivedAt.value != "")
      ensures |r| <= |tasks|
    {
      Js.Filter(tasks, IsActive())
    }

    /** The archived and active lists are disjoint and together hold every task, as often as it occurs. */
    lemma ArchivedActivePartition()
      ensures forall t :: !(t in ArchivedTasks() && t in ActiveTasks())
      ensures multiset(ArchivedTasks()) + multiset(ActiveTasks()) == multiset(tasks)
      ensures |ArchivedTasks()| + |ActiveTasks()| == |tasks|
    {
      Js.FilterSplits(tasks, IsArchived(), IsActive());
    }

    // -- mutations --

    /** SET_TASKS. */
    method SetTasks(ts: seq<JsTask>)
      modifies this
      ensures tasks == ts
      ensures loading == old(loading) && error == old(error) && pagination == old(pagination) && filters == old(filters)
    {
      tasks := ts;
    }

    /** ADD_TASK: `unshift`, so the new task is first and the rest move back by one. */
    method AddTask(t: JsTask)
      modifies this
      ensures |tasks| == |old(tasks)| + 1 && tasks[0] == t
      ensures forall i :: 0 <= i < |old(tasks)| ==> tasks[i + 1] == old(tasks)[i]
      ensures loading == old(loading) && error == old(error) && pagination == old(pagination) && filters == old(filters)
    {
      tasks := [t] + tasks;
    }

    /** UPDATE_TASK: `splice(index, 1, u)` at the first task with `u`'s id. */
    method UpdateTask(u: JsTask)
      modifies this
      ensures tasks == Replaced(old(tasks), u)
      ensures loading == old(loading) && error == old(error) && pagination == old(pagination) && filters == old(filters)
    {
      var i := Js.FindIndex(tasks, SameIdAs(u));
      if i != -1 {
        tasks := tasks[i := u];
      }
    }

    /** REMOVE_TASK: every task with that id goes, the others keep their order. */
    method RemoveTask(id: int)
      modifies this
      ensures tasks == Js.Filter(old(tasks), LacksId(id))
      ensures forall t :: t in tasks <==> t in old(tasks) && IdOf(t) != Some(id)
      ensures loading == old(loading) && error == old(error) && pagination == old(pagination) && filters == old(filters)
    {
      tasks := Js.Filter(tasks, LacksId(id));
    }

    /** SET_PAGINATION: the supplied keys are overwritten, the others kept. */
    method SetPagination(p: map<string, int>)
      requires Valid()
      modifies this
      ensures Valid()
      ensures pagination == Js.Spread(old(pagination), p)
      ensures tasks == old(tasks) && loading == old(loading) && error == old(error) && filters == old(filters)
    {
      pagination := Js.Spread(pagination, p);
    }

    /** SET_FILTERS: the supplied keys are overwritten, the others kept. */
    method SetFilters(f: map<string, string>)
      modifies this
      ensures filters == Js.Spread(old(filters), f)
      ensures tasks == old(tasks) && loading == old(loading) && error == old(error) && pagination == old(pagination)
    {
      filters := Js.Spread(filters, f);
    }

    // -- actions --

    /**
     * fetchTasks: sends the filters overlaid with `params` and the page
     * (`params.page` when truthy, else the current page); on success stores
     * the tasks and the meta, on failure the error. Loading ends false.
     */
    method FetchTasks(params: map<string, string>, paramsPage: Option<int>, reply: Js.Reply<Listing>)
      returns (query: map<string, string>, page: int, ok: bool)
      requires Valid()
      modifies this
      ensures Valid()
      ensures query == Js.Spread(old(filters), params)
      ensures page == if paramsPage.Some? && paramsPage.value != 0 then paramsPage.value else old(pagination)["currentPage"]
      ensures !loading && filters == old(filters)
      ensures ok <==> reply.Success?
      ensures ok ==> tasks == reply.body.data && pagination == Js.Spread(old(pagination), MetaOf(reply.body)) && error.None?
      ensures !ok ==> tasks == old(tasks) && pagination == old(pagination) &&
                      error == Some(Js.ErrorText(reply.message, "Failed to fetch tasks"))
    {
      loading, error := true, None;
      query := Js.Spread(filters, params);
      page := if paramsPage.Some? && paramsPage.value != 0 then paramsPage.value else pagination["currentPage"];
      if reply.Success? {
        SetTasks(reply.body.data);
        SetPagination(MetaOf(reply.body));
        ok := true;
      } else {
        error := Some(Js.ErrorText(reply.message, "Failed to fetch tasks"));
        ok := false;
      }
      loading := false;
    }

    /** createTask: on success the created task goes first in the list. Loading ends false. */
    method CreateTask(reply: Js.Reply<JsTask>) returns (ok: bool)
      modifies this
      ensures !loading && pagination == old(pagination) && filters == old(filters)
      ensures ok <==> reply.Success?
      ensures ok ==> tasks == [reply.body] + old(tasks) && error.None?
      ensures !ok ==> tasks == old(tasks) && error == Some(Js.ErrorText(reply.message, "Failed to create task"))
    {
      loading, error := true, None;
      if reply.Success? {
        AddTask(reply.body);
        ok := true;
      } else {
        error := Some(Js.ErrorText(reply.message, "Failed to create task"));
        ok := false;
      }
      loading := false;
    }

    /** updateTask: on success the returned task replaces the held one. Loading ends false. */
    method UpdateTaskAction(reply: Js.Reply<JsTask>) returns (ok: bool)
      modifies this
      ensures !loading && pagination == old(pagination) && filters == old(filters)
      ensures ok <==> reply.Success?
      ensures ok ==> tasks == Replaced(old(tasks), reply.body) && error.None?
      ensures !ok ==> tasks == old(tasks) && error == Some(Js.ErrorText(reply.message, "Failed to update task"))
    {
      loading, error := true, None;
      if reply.Success? {
        UpdateTask(reply.body);
        ok := true;
      } else {
        error := Some(Js.ErrorText(reply.message, "Failed to update task"));
        ok := false;
      }
      loading := false;
    }

    /** deleteTask: on success every task with the id is removed. Loading ends false. */
    method DeleteTask(taskId: int, reply: Js.Reply<()>) returns (ok: bool)
      modifies this
      ensures !loading && pagination == old(pagination) && filters == old(filters)
      ensures ok <==> reply.Success?
      ensures ok ==> tasks == Js.Filter(old(tasks), LacksId(taskId)) && error.None?
      ensures !ok ==> tasks == old(tasks) && error == Some(Js.ErrorText(reply.message, "Failed to delete task"))
    {
      loading, error := true, None;
      if reply.Success? {
        RemoveTask(taskId);
        ok := true;
      } else {
        error := Some(Js.ErrorText(reply.message, "Failed to delete task"));
        ok := false;
      }
      loading := false;
    }

    /**
     * completeTask: patches the endpoint chosen from `completed_at`, then
     * refetches. A failed patch rejects with its message and leaves the
     * store alone; a failed refetch records the fetch error in the store,
     * and the action rejects with the same message or, when there is none,
     * the toggle fallback.
     */
    method CompleteTask(task: JsTask, patch: Js.Reply<()>, refetch: Js.Reply<Listing>)
      returns (endpoint: Endpoint, rejection: Option<string>)
      requires Valid() && task.Record?
      modifies this
      ensures Valid()
      ensures endpoint == ToggleEndpoint(task)
      ensures filters == old(filters)
      ensures patch.Failed? ==> rejection == Some(Js.ErrorText(patch.message, "Failed to toggle task completion")) &&
                                tasks == old(tasks) && loading == old(loading) && error == old(error) && pagination == old(pagination)
      ensures patch.Success? ==> !loading
      ensures patch.Success? && refetch.Success? ==> rejection.None? && tasks == refetch.body.data && error.None? &&
                                                     pagination == Js.Spread(old(pagination), MetaOf(refetch.body))
      ensures patch.Success? && refetch.Failed? ==> rejection == Some(Js.ErrorText(refetch.message, "Failed to toggle task completion")) &&
                                                    tasks == old(tasks) && pagination == old(pagination) &&
                                                    error == Some(Js.ErrorText(refetch.message, "Failed to fetch tasks"))
    {
      endpoint := ToggleEndpoint(task);
      if patch.Failed? {
        return endpoint, Some(Js.ErrorText(patch.message, "Failed to toggle task completion"));
      }
      var query, page, ok := FetchTasks(map[], None, refetch);
      rejection := if ok then None else Some(Js.ErrorText(refetch.message, "Failed to toggle task completion"));
    }

    /**
     * archiveTask / restoreTask as written: the whole response body (the
     * task wrapped under `data`) is committed to UPDATE_TASK.
     */
    method ArchiveTask(reply: Js.Reply<JsTask>) returns (ok: bool)
      modifies this
      ensures ok <==> reply.Success?
      ensures ok ==> tasks == Replaced(old(tasks), Envelope(reply.body))
      ensures !ok ==> tasks == old(tasks)
      ensures loading == old(loading) && error == old(error) && pagination == old(pagination) && filters == old(filters)
    {
      ok := reply.Success?;
      if ok {
        UpdateTask(Envelope(reply.body));
      }
    }

    /** archiveTask / restoreTask committing the task itself (`response.data.data`), as updateTask does. */
    method ArchiveTaskUnwrapped(reply: Js.Reply<JsTask>) returns (ok: bool)
      modifies this
      ensures ok <==> reply.Success?
      ensures ok ==> tasks == Replaced(old(tasks), reply.body)
      ensures !ok ==> tasks == old(tasks)
      ensures loading == old(loading) && error == old(error) && pagination == old(pagination) && filters == old(filters)
    {
      ok := reply.Success?;
      if ok {
        UpdateTask(reply.body);
      }
    }

    /**
     * updateFilters: merges the filters, goes back to page 1, and refetches
     * from page 1; a failed refetch rejects (`ok` false) after recording the
     * error.
     */
    method UpdateFilters(f: map<string, string>, reply: Js.Reply<Listing>) returns (query: map<string, string>, page: int, ok: bool)
      requires Valid()
      modifies this
      ensures Valid()
      ensures filters == Js.Spread(old(filters), f)
      ensures query == filters && page == 1
      ensures !loading
      ensures ok <==> reply.Success?
      ensures ok ==> tasks == reply.body.data && error.None? &&
                     pagination == Js.Spread(old(pagination)["currentPage" := 1], MetaOf(reply.body))
      ensures !ok ==> tasks == old(tasks) && pagination == old(pagination)["currentPage" := 1] &&
                      error == Some(Js.ErrorText(reply.message, "Failed to fetch tasks"))
    {
      SetFilters(f);
      SetPagination(map["currentPage" := 1]);
      query, page, ok := FetchTasks(map[], None, reply);
      assert query == Js.Spread(filters, map[]);
    }

    /** downloadAttachment: records the error on failure; loading ends false either way. */
    method DownloadAttachment(reply: Js.Reply<()>) returns (ok: bool)
      modifies this
      ensures !loading && tasks == old(tasks) && pagination == old(pagination) && filters == old(filters)
      ensures ok <==> reply.Success?
      ensures ok ==> error.None?
      ensures !ok ==> error == Some(Js.ErrorText(reply.message, "Failed to download attachment"))
    {
      loading, error := true, None;
      ok := reply.Success?;
      if !ok {
        error := Some(Js.ErrorText(reply.message, "Failed to download attachment"));
      }
      loading := false;
    }

    /** setPage. */
    method SetPage(page: int)
      requires Valid()
      modifies this
      ensures Valid()
      ensures pagination == old(pagination)["currentPage" := page]
      ensures tasks == old(tasks) && filters == old(filters) && loading == old(loading) && error == old(error)
    {
      SetPagination(map["currentPage" := page]);
    }
  }
}

=== FILE: db.dfy ===
/**
 * The server's tables: tasks (with soft deletes), tags, the task_tag pivot,
 * attachment rows, the set of paths the file store holds, and the request
 * context every query reads (`auth()->id()` and `now()`).
 */
module Db {
  import opened Wrappers
  import opened Schema
  import TaskModel

  /** No two tags share a name (tags are shared by exact name). */
  ghost predicate UniqueTagNames(tags: map<TagId, Tag>) {
    forall a, b :: a in tags && b in tags && tags[a].name == tags[b].name ==> a == b
  }

  /** `Task::find($id)`: the row, unless it is missing or soft-deleted. */
  function FindTask(tasks: map<TaskId, Task>, id: TaskId): (r: Option<Task>)
    ensures r.Some? <==> id in tasks && TaskModel.NotTrashed(tasks[id])
    ensures r.Some? ==> r.value == tasks[id]
  {
    if id in tasks && tasks[id].deletedAt.None? then Some(tasks[id]) else None
  }

  /** A visible task owned by `user`: the rows `Task::where('user_id', $user)` sees. */
  predicate OwnedBy(tasks: map<TaskId, Task>, id: TaskId, user: UserId) {
    id in tasks && TaskModel.NotTrashed(tasks[id]) && tasks[id].userId == user
  }

  /** `Tag::where('name', $name)->first()`. */
  function FindTagByName(tags: map<TagId, Tag>, name: string): (r: Option<TagId>)
    requires UniqueTagNames(tags)
    ensures r.Some? ==> r.value in tags && tags[r.value].name == name
    ensures r.None? ==> forall g :: g in tags ==> tags[g].name != name
  {
    if exists g :: g in tags && tags[g].name == name then
      var g :| g in tags && tags[g].name == name; Some(g)
    else None
  }

  /** The tags a task carries through the pivot table. */
  function TagsOfTask(rel: set<(TaskId, TagId)>, t: TaskId): set<TagId> {
    set p | p in rel && p.0 == t :: p.1
  }

  /**
   * `$task->tags()->sync($ids)`: afterwards the task carries exactly the
   * listed tags and every other task keeps its own.
   */
  function SyncRel(rel: set<(TaskId, TagId)>, t: TaskId, ids: seq<TagId>): (r: set<(TaskId, TagId)>)
    ensures TagsOfTask(r, t) == set g | g in ids
    ensures forall u :: u != t ==> TagsOfTask(r, u) == TagsOfTask(rel, u)
    ensures forall p :: p in r ==> p in rel || (p.0 == t && p.1 in ids)
  {
    var r := (set p | p in rel && p.0 != t) + (set g | g in ids :: (t, g));
    assert forall g :: g in ids ==> (t, g) in r;
    r
  }

  /** `$task->tags()->detach($g)`: only the one association goes. */
  function DetachRel(rel: set<(TaskId, TagId)>, t: TaskId, g: TagId): (r: set<(TaskId, TagId)>)
    ensures TagsOfTask(r, t) == TagsOfTask(rel, t) - {g}
    ensures forall u :: u != t ==> TagsOfTask(r, u) == TagsOfTask(rel, u)
    ensures r <= rel
  {
    rel - {(t, g)}
  }

  /** The attachment rows of a task (Attachment has no soft-delete scope). */
  function AttachmentsOf(attachments: map<AttachmentId, Attachment>, t: TaskId): set<AttachmentId> {
    set a | a in attachments && attachments[a].taskId == t
  }

  /** The stored paths of some attachment rows. */
  function PathsOf(attachments: map<AttachmentId, Attachment>, ids: set<AttachmentId>): set<string>
    requires ids <= attachments.Keys
  {
    set a | a in ids :: attachments[a].filePath
  }

  /** All columns of all tables at one moment, for stating what an operation leaves alone. */
  datatype Tables = Tables(
    tasks: map<TaskId, Task>,
    tags: map<TagId, Tag>,
    taskTags: set<(TaskId, TagId)>,
    attachments: map<AttachmentId, Attachment>,
    files: set<string>,
    userId: UserId,
    now: Timestamp,
    nextTaskId: TaskId,
    nextTagId: TagId,
    nextAttachmentId: AttachmentId)

  class Database {
    var tasks: map<TaskId, Task>
    var tags: map<TagId, Tag>
    /** The task_tag pivot rows. */
    var taskTags: set<(TaskId, TagId)>
    var attachments: map<AttachmentId, Attachment>
    /** The paths the file store currently holds. */
    var files: set<string>
    /** `auth()->id()` for the request being served. */
    var userId: UserId
    /** `now()` for the request being served. */
    var now: Timestamp
    /** The auto-increment counters. */
    var nextTaskId: TaskId
    var nextTagId: TagId
    var nextAttachmentId: AttachmentId

    ghost predicate Valid()
      reads this
    {
      && 0 < nextTaskId && 0 < nextTagId && 0 < nextAttachmentId
      && (forall id :: id in tasks ==> 0 < id < nextTaskId)
      && (forall g :: g in tags ==> 0 < g < nextTagId)
      && (forall a :: a in attachments ==> 0 < a < nextAttachmentId)
      && (forall p :: p in taskTags ==> p.0 in tasks && p.1 in tags)
      && (forall a :: a in attachments ==> attachments[a].taskId in tasks)
      && UniqueTagNames(tags)
    }

    ghost function State(): Tables
      reads this
    {
      Tables(tasks, tags, taskTags, attachments, files, userId, now, nextTaskId, nextTagId, nextAttachmentId)
    }

    /** Empty tables, serving `user` at time `clock`. */
    constructor (user: UserId, clock: Timestamp)
      ensures Valid()
      ensures State() == Tables(map[], map[], {}, map[], {}, user, clock, 1, 1, 1)
    {
      tasks, tags, taskTags, attachments, files := map[], map[], {}, map[], {};
      userId, now := user, clock;
      nextTaskId, nextTagId, nextAttachmentId := 1, 1, 1;
    }
  }
}

=== FILE: form_input.dfy ===
/**
 * Request input as Laravel's validator sees it, and the rule checks the
 * two form requests share. Values arrive after the framework's global
 * TrimStrings and ConvertEmptyStringsToNull middleware.
 */
module FormInput {
  /** An uploaded file: the client's name, the detected MIME type, the size in bytes and the extension guessed from the content. */
  datatype UploadedFile = UploadedFile(clientName: string, mimeType: string, size: int, guessedExtension: string)

  /** One request value. */
  datatype Value = Null | Str(s: string) | Arr(items: seq<Value>) | File(file: UploadedFile)

  /** The request's input keyed by field name; an absent field is an absent key. */
  type Input = map<string, Value>

  /** The `required` rule: not null, not an empty string, not an empty array. */
  predicate Filled(v: Value) {
    v != Null && v != Str("") && v != Arr([])
  }

  /**
   * Whether a non-implicit rule runs on field `key` of a `nullable` field:
   * it does not when the field is absent, null or an empty string.
   */
  predicate Checked(input: Input, key: string) {
    key in input && input[key] != Null && input[key] != Str("")
  }

  /** The `string` and `max:n` rules on one value. */
  predicate StringAtMost(v: Value, n: int) {
    v.Str? && |v.s| <= n
  }

  /** A required string field of at most `n` characters. */
  predicate RequiredStringAtMost(input: Input, key: string, n: int) {
    key in input && Filled(input[key]) && StringAtMost(input[key], n)
  }

  /** Every element of a required-string list is a filled string of at most `n` characters. */
  predicate AllStringsAtMost(items: seq<Value>, n: int) {
    forall i :: 0 <= i < |items| ==> Filled(items[i]) && StringAtMost(items[i], n)
  }

  /** The strings of a list of string values, in order. */
  function Strings(items: seq<Value>): (r: seq<string>)
    requires forall i :: 0 <= i < |items| ==> items[i].Str?
    ensures |r| == |items|
    ensures forall i :: 0 <= i < |items| ==> r[i] == items[i].s
  {
    if items == [] then [] else [items[0].s] + Strings(items[1..])
  }
}

=== FILE: js.dfy ===
/**
 * The few JavaScript array and object operations the client stores use:
 * `findIndex`, `find`, `filter`, object spread, and truthiness of an
 * optional string.
 */
module Js {
  import opened Wrappers

  /** `xs.findIndex(p)`: the first index satisfying `p`, or -1. */
  function FindIndex<T>(xs: seq<T>, p: T -> bool): (r: int)
    ensures -1 <= r < |xs|
    ensures r == -1 <==> forall i :: 0 <= i < |xs| ==> !p(xs[i])
    ensures r >= 0 ==> p(xs[r]) && forall j :: 0 <= j < r ==> !p(xs[j])
  {
    if xs == [] then -1
    else if p(xs[0]) then 0
    else
      var k := FindIndex(xs[1..], p);
      if k == -1 then -1 else k + 1
  }

  /** `xs.find(p)`: the first element satisfying `p`, or undefined. */
  function Find<T(!new)>(xs: seq<T>, p: T -> bool): (r: Option<T>)
    ensures r.None? <==> forall x :: x in xs ==> !p(x)
    ensures r.Some? ==> r.value in xs && p(r.value)
    ensures r.Some? ==> exists i :: 0 <= i < |xs| && xs[i] == r.value && forall j :: 0 <= j < i ==> !p(xs[j])
  {
    var i := FindIndex(xs, p);
    if i == -1 then None else Some(xs[i])
  }

  /** `xs.filter(p)`. */
  function Filter<T(!new)>(xs: seq<T>, p: T -> bool): (r: seq<T>)
    ensures forall x :: x in r <==> x in xs && p(x)
    ensures |r| <= |xs|
  {
    if xs == [] then []
    else if p(xs[0]) then [xs[0]] + Filter(xs[1..], p)
    else Filter(xs[1..], p)
  }

  /** Filtering keeps order: the kept elements of a concatenation are the kept elements of each part, in turn. */
  lemma {:induction false} FilterConcat<T(!new)>(xs: seq<T>, ys: seq<T>, p: T -> bool)
    ensures Filter(xs + ys, p) == Filter(xs, p) + Filter(ys, p)
  {
    if xs == [] {
      assert xs + ys == ys;
    } else {
      assert (xs + ys)[1..] == xs[1..] + ys;
      FilterConcat(xs[1..], ys, p);
    }
  }

  /** Filtering by `p` and by its negation splits a list: every element lands in exactly one part. */
  lemma {:induction false} FilterSplits<T(!new)>(xs: seq<T>, p: T -> bool, q: T -> bool)
    requires forall x :: q(x) == !p(x)
    ensures multiset(Filter(xs, p)) + multiset(Filter(xs, q)) == multiset(xs)
    ensures |Filter(xs, p)| + |Filter(xs, q)| == |xs|
  {
    if xs != [] {
      FilterSplits(xs[1..], p, q);
      assert xs == [xs[0]] + xs[1..];
    }
  }

  /** `{ ...a, ...b }`: every key of either, `b` winning. */
  function Spread<V>(a: map<string, V>, b: map<string, V>): (r: map<string, V>)
    ensures forall k :: k in r <==> k in a || k in b
    ensures forall k :: k in b ==> r[k] == b[k]
    ensures forall k :: k in a && k !in b ==> r[k] == a[k]
  {
    a + b
  }

  /** A nullable string is truthy when it is present and not empty. */
  predicate Truthy(s: Option<string>) {
    s.Some? && s.value != ""
  }

  /** `e.response?.data?.message || fallback`. */
  function ErrorText(message: Option<string>, fallback: string): (r: string)
    ensures Truthy(message) ==> r == message.value
    ensures !Truthy(message) ==> r == fallback
  {
    if Truthy(message) then message.value else fallback
  }

  /** The outcome of a request: the response body, or the server's message if it sent one. */
  datatype Reply<T> = Success(body: T) | Failed(message: Option<string>)
}

=== FILE: ordering.dfy ===
/**
 * Extremes and ascending enumeration of finite sets of integers: the
 * database's `max(...)` aggregate and its default row order (ascending
 * auto-increment id).
 */
module Ordering {

  predicate IsLeast(m: int, s: set<int>) {
    m in s && forall x :: x in s ==> m <= x
  }

  predicate IsGreatest(m: int, s: set<int>) {
    m in s && forall x :: x in s ==> x <= m
  }

  /** A non-empty set has an element. */
  lemma Pick<T>(s: set<T>) returns (y: T)
    requires s != {}
    ensures y in s
  {
    if forall x :: x !in s {
      assert false;
    }
    y :| y in s;
  }

  /** Every non-empty finite set of integers has a least element. */
  lemma {:induction false} LeastExists(s: set<int>) returns (least: int)
    requires s != {}
    ensures IsLeast(least, s)
  {
    var y := Pick(s);
    var rest := s - {y};
    if rest == {} {
      assert s == {y};
      least := y;
    } else {
      var m := LeastExists(rest);
      least := if y < m then y else m;
      forall x | x in s ensures least <= x {
        if x != y {
          assert x in rest;
        }
      }
    }
  }

  /** Every non-empty finite set of integers has a greatest element. */
  lemma {:induction false} GreatestExists(s: set<int>) returns (greatest: int)
    requires s != {}
    ensures IsGreatest(greatest, s)
  {
    var y := Pick(s);
    var rest := s - {y};
    if rest == {} {
      assert s == {y};
      greatest := y;
    } else {
      var m := GreatestExists(rest);
      greatest := if m < y then y else m;
      forall x | x in s ensures x <= greatest {
        if x != y {
          assert x in rest;
        }
      }
    }
  }

  /** The least element of a non-empty set. */
  function MinOf(s: set<int>): (m: int)
    requires s != {}
    ensures IsLeast(m, s)
  {
    assert exists l :: IsLeast(l, s) by {
      var l := LeastExists(s);
    }
    var m :| IsLeast(m, s); m
  }

  /** The greatest element of a non-empty set (SQL `max`). */
  function MaxOf(s: set<int>): (m: int)
    requires s != {}
    ensures IsGreatest(m, s)
  {
    assert exists g :: IsGreatest(g, s) by {
      var g := GreatestExists(s);
    }
    var m :| IsGreatest(m, s); m
  }

  predicate StrictlyIncreasing(q: seq<int>) {
    forall i, j :: 0 <= i < j < |q| ==> q[i] < q[j]
  }

  /** In an ascending sequence, an element left out of a prefix lies above every element of that prefix. */
  lemma AbovePrefix(q: seq<int>, n: nat, g: int)
    requires StrictlyIncreasing(q) && n <= |q| && g in q && g !in q[..n]
    ensures n < |q|
    ensures forall x :: x in q[..n] ==> x < g
  {
    var k :| 0 <= k < |q| && q[k] == g;
    assert k >= n;
    forall x | x in q[..n] ensures x < g {
      var j :| 0 <= j < n && q[..n][j] == x;
      assert q[j] == x;
    }
  }

  /** The elements of `s`, each once, in ascending order. */
  function Ascending(s: set<int>): (q: seq<int>)
    ensures StrictlyIncreasing(q)
    ensures forall x :: x in q <==> x in s
    ensures |q| == |s|
    decreases s
  {
    if s == {} then []
    else
      var m := MinOf(s);
      var rest := Ascending(s - {m});
      assert forall x :: x in rest ==> m < x;
      [m] + rest
  }
}

=== FILE: php.dfy ===
/**
 * The few PHP string built-ins the services rely on, written out exactly
 * enough for the inputs the model feeds them.
 */
module Php {

  /** `empty($s)` for a string: true for "" and for "0". */
  predicate Empty(s: string) {
    s == "" || s == "0"
  }

  predicate IsDigit(c: char) {
    '0' <= c <= '9'
  }

  /** Characters PHP skips before a numeric prefix. */
  predicate IsLeadingSpace(c: char) {
    c == ' ' || c == '\t' || c == '\n' || c == '\r' || c == '\U{0B}' || c == '\U{0C}'
  }

  /** The value of one decimal digit. */
  function Digit(c: char): int {
    c as int - '0' as int
  }

  /** 10 to the power `n`. */
  function Pow10(n: nat): (r: nat)
    ensures r >= 1
    ensures n >= 1 ==> r >= 10 && r % 10 == 0
  {
    if n == 0 then 1 else 10 * Pow10(n - 1)
  }

  /** How many characters at the start of `s` are leading white space. */
  function SpaceRun(s: string): (n: nat)
    ensures n <= |s|
    ensures forall i :: 0 <= i < n ==> IsLeadingSpace(s[i])
    ensures n < |s| ==> !IsLeadingSpace(s[n])
  {
    if s == [] || !IsLeadingSpace(s[0]) then 0 else 1 + SpaceRun(s[1..])
  }

  /** How many characters at the start of `s` are decimal digits. */
  function DigitRun(s: string): (n: nat)
    ensures n <= |s|
    ensures forall i :: 0 <= i < n ==> IsDigit(s[i])
    ensures n < |s| ==> !IsDigit(s[n])
  {
    if s == [] || !IsDigit(s[0]) then 0 else 1 + DigitRun(s[1..])
  }

  /** The positional value of a string of digits: the last digit counts once, the one before it ten times, and so on. */
  function Dec(d: string): int
    decreases |d|
  {
    if d == [] then 0 else 10 * Dec(d[..|d| - 1]) + Digit(d[|d| - 1])
  }

  /** The number a string begins with: the value of its leading digits, 0 when there are none. */
  function LeadingNumber(s: string): int {
    Dec(s[..DigitRun(s)])
  }

  /** Putting a digit in front of `d` adds it at the place value of `|d|`. */
  lemma {:induction false} DecCons(c: char, d: string)
    ensures Dec([c] + d) == Digit(c) * Pow10(|d|) + Dec(d)
    decreases |d|
  {
    if d == [] {
      assert ([c] + d)[..0] == [];
    } else {
      var e := [c] + d;
      var d' := d[..|d| - 1];
      assert e[..|e| - 1] == [c] + d';
      DecCons(c, d');
      calc {
        Dec(e);
        10 * Dec([c] + d') + Digit(d[|d| - 1]);
        10 * (Digit(c) * Pow10(|d'|) + Dec(d')) + Digit(d[|d| - 1]);
        Digit(c) * (10 * Pow10(|d'|)) + (10 * Dec(d') + Digit(d[|d| - 1]));
        Digit(c) * Pow10(|d|) + Dec(d);
      }
    }
  }

  /**
   * The value of the longest run of digits at the start of `s`, read left
   * to right onto `acc`; DigitsValueIsLeadingNumber states its value.
   */
  function DigitsValue(s: string, acc: nat): (r: nat)
    ensures r >= acc
    ensures s == [] || !IsDigit(s[0]) ==> r == acc
  {
    if s == [] || !IsDigit(s[0]) then acc
    else DigitsValue(s[1..], acc * 10 + Digit(s[0]))
  }

  /** Shifting an accumulator one place and adding a digit, scaled by `p`. */
  lemma Shift(acc: int, d: int, p: int)
    ensures (acc * 10 + d) * p == acc * (10 * p) + d * p
  {
  }

  /** Reading left to right with an accumulator gives the positional value of the leading digits. */
  lemma {:induction false} DigitsValueIsLeadingNumber(s: string, acc: nat)
    ensures DigitsValue(s, acc) == acc * Pow10(DigitRun(s)) + LeadingNumber(s)
    decreases |s|
  {
    if s == [] || !IsDigit(s[0]) {
      assert s[..0] == [];
    } else {
      var k := DigitRun(s[1..]);
      var d := Digit(s[0]);
      var p := Pow10(k);
      assert DigitRun(s) == k + 1 && Pow10(k + 1) == 10 * p;
      DigitsValueIsLeadingNumber(s[1..], acc * 10 + d);
      assert s[..k + 1] == [s[0]] + s[1..][..k];
      DecCons(s[0], s[1..][..k]);
      assert Dec(s[..k + 1]) == d * p + Dec(s[1..][..k]);
      Shift(acc, d, p);
    }
  }

  /**
   * `intval($s)` for a string: leading white space is skipped, then an
   * optional sign and the decimal digits that follow it are read; a string
   * with no such prefix gives 0.
   */
  function IntVal(s: string): (r: int)
    ensures var t := s[SpaceRun(s)..];
            && (t != [] && t[0] == '-' ==> r == -LeadingNumber(t[1..]))
            && (t != [] && t[0] == '+' ==> r == LeadingNumber(t[1..]))
            && (t == [] || (t[0] != '-' && t[0] != '+') ==> r == LeadingNumber(t))
  {
    if s == [] then 0
    else if IsLeadingSpace(s[0]) then
      assert s[SpaceRun(s)..] == s[1..][SpaceRun(s[1..])..];
      IntVal(s[1..])
    else if s[0] == '-' then
      DigitsValueIsLeadingNumber(s[1..], 0);
      -(DigitsValue(s[1..], 0) as int)
    else if s[0] == '+' then
      DigitsValueIsLeadingNumber(s[1..], 0);
      DigitsValue(s[1..], 0)
    else
      DigitsValueIsLeadingNumber(s, 0);
      DigitsValue(s, 0)
  }

  /** Worked values: white space and a sign are read, the number stops at the first non-digit. */
  lemma IntValExamples()
    ensures IntVal("") == 0 && IntVal("abc") == 0
    ensures IntVal(" 12x") == 12 && IntVal("-3") == -3 && IntVal("+-1") == 0
  {
    assert DigitRun("12x") == 2;
    assert Dec("12") == 12 by { assert "12"[..1] == "1"; assert "1"[..0] == ""; }
  }

  /** `strtolower`: ASCII upper-case letters become lower-case, nothing else changes. */
  function ToLower(s: string): (r: string)
    ensures |r| == |s|
    ensures forall i :: 0 <= i < |s| && !('A' <= s[i] <= 'Z') ==> r[i] == s[i]
    ensures forall i :: 0 <= i < |s| && 'A' <= s[i] <= 'Z' ==> r[i] == (s[i] as int + 32) as char
  {
    if s == [] then []
    else
      var c := if 'A' <= s[0] <= 'Z' then (s[0] as int + 32) as char else s[0];
      [c] + ToLower(s[1..])
  }

  /** `str_starts_with($s, $prefix)`. */
  predicate StartsWith(s: string, prefix: string) {
    |prefix| <= |s| && s[..|prefix|] == prefix
  }

  /** `needle` occurs in `s` starting at index `i`. */
  predicate OccursAt(s: string, needle: string, i: int) {
    0 <= i <= |s| - |needle| && s[i..i + |needle|] == needle
  }

  /** `$needle` occurs in `$s` as a contiguous substring. */
  predicate Contains(s: string, needle: string) {
    exists i | 0 <= i <= |s| :: OccursAt(s, needle, i)
  }

  function Max(a: int, b: int): int { if a < b then b else a }

  function Min(a: int, b: int): int { if a < b then a else b }
}

=== FILE: prevent_guest_actions.dfy ===
/**
 * The guest gate middleware (app/Http/Middleware/PreventGuestActions.php):
 * a request from a guest account is answered at once, anything else goes
 * on to the next handler untouched.
 */
module PreventGuestActions {
  import opened Wrappers
  import opened Schema

  /** The message a guest receives, as JSON or as an error flash. */
  const GuestMessage: string := "Guest users cannot perform this action."

  /** What the middleware answers: the next handler's response, a JSON error, or a redirect back with a flash. */
  datatype Response<R> = Forwarded(response: R) | Json(status: int, message: string) | RedirectBack(flashKey: string, flash: string)

  /**
   * `handle`: `user` is the authenticated user, if any, and `next` the rest
   * of the pipeline. Only a guest is stopped; JSON clients get 401.
   */
  function Handle<Q, R>(request: Q, user: Option<User>, expectsJson: bool, next: Q -> R): (r: Response<R>)
    ensures r.Forwarded? <==> user.None? || !user.value.isGuest
    ensures r.Forwarded? ==> r.response == next(request)
    ensures r.Json? <==> user.Some? && user.value.isGuest && expectsJson
    ensures r.Json? ==> r.status == 401 && r.message == GuestMessage
    ensures r.RedirectBack? <==> user.Some? && user.value.isGuest && !expectsJson
    ensures r.RedirectBack? ==> r.flashKey == "error" && r.flash == GuestMessage
  {
    if user.Some? && user.value.isGuest then
      if expectsJson then Json(401, GuestMessage) else RedirectBack("error", GuestMessage)
    else Forwarded(next(request))
  }

  /** The answer to a non-guest does not depend on how the request asks for its response. */
  lemma NonGuestIgnoresFormat<Q, R>(request: Q, user: Option<User>, next: Q -> R)
    requires user.None? || !user.value.isGuest
    ensures Handle(request, user, true, next) == Handle(request, user, false, next) == Forwarded(next(request))
  {
  }
}

=== FILE: router.dfy ===
/**
 * The client router's navigation guard (resources/js/router/index.js):
 * routes that need a session send strangers to /login, guest-only routes
 * send signed-in users to /, everything else goes through.
 */
module Router {
  import opened Wrappers

  /** The route meta the guard reads. */
  datatype Meta = Meta(requiresAuth: bool, guest: bool)

  datatype Route = Route(path: string, name: string, meta: Meta)

  /** The application's routes. */
  const Routes: seq<Route> := [
    Route("/", "tasks", Meta(true, false)),
    Route("/login", "login", Meta(false, true)),
    Route("/register", "register", Meta(false, true))
  ]

  /** The route registered at `path`, if any. */
  function Lookup(path: string): (r: Option<Route>)
    ensures r.Some? ==> r.value in Routes && r.value.path == path
    ensures r.None? ==> forall x :: x in Routes ==> x.path != path
  {
    if path == "/" then Some(Routes[0])
    else if path == "/login" then Some(Routes[1])
    else if path == "/register" then Some(Routes[2])
    else None
  }

  /** What `next` is called with: nothing (go on) or a path. */
  datatype Next = Proceed | Redirect(path: string)

  /** `beforeEach`: decided by the target's meta and isAuthenticated alone. */
  function Guard(to: Meta, isAuthenticated: bool): (r: Next)
    ensures r == Redirect("/login") <==> to.requiresAuth && !isAuthenticated
    ensures r == Redirect("/") <==> !(to.requiresAuth && !isAuthenticated) && to.guest && isAuthenticated
    ensures r == Proceed <==> !(to.requiresAuth && !isAuthenticated) && !(to.guest && isAuthenticated)
  {
    if to.requiresAuth && !isAuthenticated then Redirect("/login")
    else if to.guest && isAuthenticated then Redirect("/")
    else Proceed
  }

  /** The guard as registered: the origin route is passed but not read. */
  function BeforeEach(to: Route, from: Route, isAuthenticated: bool): (r: Next)
    ensures to.meta.requiresAuth && !isAuthenticated ==> r == Redirect("/login")
    ensures !(to.meta.requiresAuth && !isAuthenticated) && to.meta.guest && isAuthenticated ==> r == Redirect("/")
    ensures !(to.meta.requiresAuth && !isAuthenticated) && !(to.meta.guest && isAuthenticated) ==> r == Proceed
  {
    Guard(to.meta, isAuthenticated)
  }

  /** The decision is the same whichever route the navigation starts from. */
  lemma OriginIgnored(to: Route, from1: Route, from2: Route, isAuthenticated: bool)
    ensures BeforeEach(to, from1, isAuthenticated) == BeforeEach(to, from2, isAuthenticated)
  {
  }

  /**
   * With this route table the guard never sends a signed-in user to
   * /login nor a signed-out one to /, and a redirect lands on a route the
   * guard lets through, so there is no redirect loop.
   */
  lemma NoWrongRedirect(r: Route, isAuthenticated: bool)
    requires r in Routes
    ensures isAuthenticated ==> Guard(r.meta, isAuthenticated) != Redirect("/login")
    ensures !isAuthenticated ==> Guard(r.meta, isAuthenticated) != Redirect("/")
    ensures Guard(r.meta, isAuthenticated).Redirect? ==>
              var target := Lookup(Guard(r.meta, isAuthenticated).path);
              target.Some? && Guard(target.value.meta, isAuthenticated) == Proceed
  {
    assert r == Routes[0] || r == Routes[1] || r == Routes[2];
  }
}

=== FILE: schema.dfy ===
/**
 * The rows of the server's tables, as the migrations declare them
 * (database/migrations/..._create_tasks_table.php and
 * ..._create_attachments_table.php), and the user row.
 */
module Schema {
  import opened Wrappers

  type TaskId = int
  type TagId = int
  type UserId = int
  type AttachmentId = int
  /** A clock reading (`now()`); the model only compares and stores them. */
  type Timestamp = int
  /** A calendar day; later days are larger numbers. */
  type Date = int

  /** The `priority` enum column. */
  datatype Priority = Urgent | High | Normal | Low

  /** The column default. */
  const DefaultPriority: Priority := Normal

  /** The enum value as it is stored and sent. */
  function PriorityName(p: Priority): string {
    match p
    case Urgent => "urgent"
    case High => "high"
    case Normal => "normal"
    case Low => "low"
  }

  /** Reads an enum value back from its name (`in:urgent,high,normal,low`). */
  function ParsePriority(s: string): (r: Option<Priority>)
    ensures r.Some? <==> s in {"urgent", "high", "normal", "low"}
    ensures r.Some? ==> PriorityName(r.value) == s
  {
    if s == "urgent" then Some(Urgent)
    else if s == "high" then Some(High)
    else if s == "normal" then Some(Normal)
    else if s == "low" then Some(Low)
    else None
  }

  /** The `file_type` enum column of attachments. */
  datatype FileType = Image | Video | Document

  function FileTypeName(f: FileType): string {
    match f
    case Image => "image"
    case Video => "video"
    case Document => "document"
  }

  /**
   * A row of `tasks`. `deletedAt` is the soft-delete column; `completedAt`
   * and `archivedAt` are nullable timestamps.
   */
  datatype Task = Task(
    userId: UserId,
    title: string,
    description: string,
    dueDate: Option<Date>,
    priority: Priority,
    taskOrder: int,
    completedAt: Option<Timestamp>,
    archivedAt: Option<Timestamp>,
    deletedAt: Option<Timestamp>,
    createdAt: Timestamp)

  /** A row of `tags`. */
  datatype Tag = Tag(name: string)

  /** A row of `attachments`. */
  datatype Attachment = Attachment(
    taskId: TaskId,
    fileName: string,
    filePath: string,
    fileType: FileType,
    mimeType: string,
    size: int)

  /** A row of `users`. */
  datatype User = User(id: UserId, name: string, email: string, password: string, isGuest: bool)
}

=== FILE: tag_service.dfy ===
/**
 * The tag service (app/Services/TagService.php): queries over the tag and
 * pivot tables scoped to the current user, find-or-create by name, rename,
 * guarded delete, and the pivot updates attach/detach.
 */
module TagService {
  import opened Wrappers
  import opened Schema
  import opened Db
  import TaskModel
  import Php
  import Ordering

  /** The most rows `search` returns. */
  const SearchLimit: nat := 10

  /** Some visible task of `user` carries tag `g`. */
  predicate UsedBy(tasks: map<TaskId, Task>, rel: set<(TaskId, TagId)>, g: TagId, user: UserId) {
    exists p :: p in rel && p.1 == g && OwnedBy(tasks, p.0, user)
  }

  /** Some visible task of a user other than `user` carries tag `g`. */
  predicate UsedByOthers(tasks: map<TaskId, Task>, rel: set<(TaskId, TagId)>, g: TagId, user: UserId) {
    exists p :: p in rel && p.1 == g && p.0 in tasks && TaskModel.NotTrashed(tasks[p.0]) && tasks[p.0].userId != user
  }

  /** `list`: the tags carried by at least one of the user's tasks. */
  function List(tasks: map<TaskId, Task>, tags: map<TagId, Tag>, rel: set<(TaskId, TagId)>, user: UserId): (r: set<TagId>)
    ensures forall g :: g in r <==> g in tags && exists t :: (t, g) in rel && OwnedBy(tasks, t, user)
  {
    set g | g in tags && UsedBy(tasks, rel, g, user)
  }

  /** `findByNames`: the tags whose name is one of `names`. */
  function FindByNames(tags: map<TagId, Tag>, names: seq<string>): (r: set<TagId>)
    ensures forall g :: g in r <==> g in tags && exists i :: 0 <= i < |names| && names[i] == tags[g].name
  {
    set g | g in tags && tags[g].name in names
  }

  /** The rows `search` filters before its limit: listed tags whose name contains the query. */
  function SearchMatches(tasks: map<TaskId, Task>, tags: map<TagId, Tag>, rel: set<(TaskId, TagId)>, user: UserId, query: string): set<TagId> {
    set g | g in List(tasks, tags, rel, user) && Php.Contains(tags[g].name, query)
  }

  /**
   * `search`: the first `SearchLimit` matching tags in table order
   * (ascending id).
   */
  function Search(tasks: map<TaskId, Task>, tags: map<TagId, Tag>, rel: set<(TaskId, TagId)>, user: UserId, query: string): (r: seq<TagId>)
    ensures |r| <= SearchLimit
    ensures forall g :: g in r ==> g in List(tasks, tags, rel, user) && Php.Contains(tags[g].name, query)
    ensures Ordering.StrictlyIncreasing(r)
    ensures forall g :: g in SearchMatches(tasks, tags, rel, user, query) && g !in r ==>
              |r| == SearchLimit && forall x :: x in r ==> x < g
  {
    var asc := Ordering.Ascending(SearchMatches(tasks, tags, rel, user, query));
    var r := asc[..Php.Min(SearchLimit, |asc|)];
    assert forall x :: x in r ==> x in asc;
    forall g | g in SearchMatches(tasks, tags, rel, user, query) && g !in r
      ensures |r| == SearchLimit && forall x :: x in r ==> x < g
    {
      Ordering.AbovePrefix(asc, |r|, g);
    }
    r
  }

  /** The tag table and counter after `Tag::firstOrCreate(['name' => $name])`, and the tag it yields. */
  datatype TagPick = TagPick(tags: map<TagId, Tag>, nextTagId: TagId, id: TagId)

  /**
   * `Tag::firstOrCreate(['name' => $name])`: the existing tag of that name,
   * or a new row with the next id.
   */
  function FirstOrCreate(tags: map<TagId, Tag>, nextTagId: TagId, name: string): (r: TagPick)
    requires UniqueTagNames(tags)
    requires forall g :: g in tags ==> g < nextTagId
    ensures r.id in r.tags && r.tags[r.id].name == name
    ensures UniqueTagNames(r.tags)
    ensures forall g :: g in r.tags ==> g < r.nextTagId
    ensures (exists g :: g in tags && tags[g].name == name) ==>
              r.tags == tags && r.nextTagId == nextTagId && r.id in tags
    ensures (forall g :: g in tags ==> tags[g].name != name) ==>
              r.id == nextTagId && r.tags == tags[nextTagId := Tag(name)] && r.nextTagId == nextTagId + 1
  {
    match FindTagByName(tags, name)
    case Some(g) => TagPick(tags, nextTagId, g)
    case None => TagPick(tags[nextTagId := Tag(name)], nextTagId + 1, nextTagId)
  }

  /** Find-or-create twice with one name yields one tag and no second row. */
  lemma FirstOrCreateIdempotent(tags: map<TagId, Tag>, nextTagId: TagId, name: string)
    requires UniqueTagNames(tags)
    requires forall g :: g in tags ==> g < nextTagId
    ensures var once := FirstOrCreate(tags, nextTagId, name);
            FirstOrCreate(once.tags, once.nextTagId, name) == once
  {
    var once := FirstOrCreate(tags, nextTagId, name);
    var twice := FirstOrCreate(once.tags, once.nextTagId, name);
    assert twice.id == once.id;
  }

  /** `create`: find-or-create by name. */
  method Create(db: Database, name: string) returns (id: TagId)
    requires db.Valid()
    modifies db
    ensures db.Valid()
    ensures var pick := FirstOrCreate(old(db.tags), old(db.nextTagId), name);
            id == pick.id && db.State() == old(db.State()).(tags := pick.tags, nextTagId := pick.nextTagId)
  {
    var pick := FirstOrCreate(db.tags, db.nextTagId, name);
    db.tags, db.nextTagId := pick.tags, pick.nextTagId;
    id := pick.id;
  }

  /** No tag other than `g` is named `name`. */
  ghost predicate NameFreeFor(tags: map<TagId, Tag>, g: TagId, name: string) {
    forall h :: h in tags && h != g ==> tags[h].name != name
  }

  /**
   * `update`: renames the tag and changes nothing else. Callers pass a name
   * no other tag holds (the update request's uniqueness rule).
   */
  method Update(db: Database, g: TagId, name: string)
    requires db.Valid() && g in db.tags && NameFreeFor(db.tags, g, name)
    modifies db
    ensures db.Valid()
    ensures db.State() == old(db.State()).(tags := old(db.tags)[g := Tag(name)])
  {
    db.tags := db.tags[g := Tag(name)];
  }

  /** The pivot rows left once tag `g` is gone (the pivot's foreign key cascades). */
  function WithoutTag(rel: set<(TaskId, TagId)>, g: TagId): (r: set<(TaskId, TagId)>)
    ensures forall p :: p in r <==> p in rel && p.1 != g
  {
    set p | p in rel && p.1 != g
  }

  /**
   * `delete`: removes the tag only when no other user's task carries it;
   * otherwise returns false and changes nothing.
   */
  method Delete(db: Database, g: TagId) returns (deleted: bool)
    requires db.Valid() && g in db.tags
    modifies db
    ensures db.Valid()
    ensures deleted <==> !UsedByOthers(old(db.tasks), old(db.taskTags), g, old(db.userId))
    ensures deleted ==> db.State() == old(db.State()).(tags := old(db.tags) - {g}, taskTags := WithoutTag(old(db.taskTags), g))
    ensures !deleted ==> db.State() == old(db.State())
  {
    if !UsedByOthers(db.tasks, db.taskTags, g, db.userId) {
      db.tags := db.tags - {g};
      db.taskTags := WithoutTag(db.taskTags, g);
      deleted := true;
    } else {
      deleted := false;
    }
  }

  /**
   * `tags` extends `t0`: every old tag is kept as it was, and every new tag
   * carries one of `names` that no old tag had.
   */
  ghost predicate GrownBy(t0: map<TagId, Tag>, tags: map<TagId, Tag>, names: seq<string>) {
    && (forall g :: g in t0 ==> g in tags && tags[g] == t0[g])
    && (forall g :: g in tags && g !in t0 ==>
          tags[g].name in names && forall h :: h in t0 ==> t0[h].name != tags[g].name)
  }

  /** One find-or-create step keeps `GrownBy` and the tags found so far. */
  lemma GrownByStep(t0: map<TagId, Tag>, before: map<TagId, Tag>, nextTagId: TagId,
                    names: seq<string>, i: nat, ids: seq<TagId>)
    requires i < |names| && |ids| == i
    requires UniqueTagNames(before) && forall g :: g in before ==> g < nextTagId
    requires GrownBy(t0, before, names[..i])
    requires forall j :: 0 <= j < i ==> ids[j] in before && before[ids[j]].name == names[j]
    ensures var pick := FirstOrCreate(before, nextTagId, names[i]);
            && GrownBy(t0, pick.tags, names[..i + 1])
            && forall j :: 0 <= j < i + 1 ==> (ids + [pick.id])[j] in pick.tags && pick.tags[(ids + [pick.id])[j]].name == names[j]
  {
    var pick := FirstOrCreate(before, nextTagId, names[i]);
    assert names[..i + 1] == names[..i] + [names[i]];
    if pick.id !in before {
      assert pick.tags == before[nextTagId := Tag(names[i])];
      forall h | h in t0 ensures t0[h].name != names[i] {
        assert h in before;
      }
    }
  }

  /**
   * The `firstOrCreate` loop of `attachToTask`: `ids[j]` is the tag named
   * `names[j]`. Existing tags are untouched and a new tag is made only for a
   * name no tag had.
   */
  method FindOrCreateAll(db: Database, names: seq<string>) returns (ids: seq<TagId>)
    requires db.Valid()
    modifies db
    ensures db.Valid()
    ensures |ids| == |names|
    ensures forall j :: 0 <= j < |names| ==> ids[j] in db.tags && db.tags[ids[j]].name == names[j]
    ensures GrownBy(old(db.tags), db.tags, names)
    ensures db.State() == old(db.State()).(tags := db.tags, nextTagId := db.nextTagId)
  {
    ids := [];
    var i := 0;
    while i < |names|
      invariant 0 <= i <= |names| && |ids| == i
      invariant db.Valid()
      invariant forall j :: 0 <= j < i ==> ids[j] in db.tags && db.tags[ids[j]].name == names[j]
      invariant GrownBy(old(db.tags), db.tags, names[..i])
      invariant db.State() == old(db.State()).(tags := db.tags, nextTagId := db.nextTagId)
    {
      GrownByStep(old(db.tags), db.tags, db.nextTagId, names, i, ids);
      var id := Create(db, names[i]);
      ids := ids + [id];
      i := i + 1;
    }
    assert names[..i] == names;
  }

  /**
   * Task `t` carries exactly the tags whose names are listed, and every
   * listed name is carried by one of them.
   */
  ghost predicate TaggedExactly(tags: map<TagId, Tag>, rel: set<(TaskId, TagId)>, t: TaskId, names: seq<string>) {
    && (forall g :: g in TagsOfTask(rel, t) <==> g in tags && tags[g].name in names)
    && (forall n :: n in names ==> exists g :: g in TagsOfTask(rel, t) && g in tags && tags[g].name == n)
  }

  /**
   * `attachToTask`: every name is found or created, then the task's tag set
   * becomes exactly the named tags. Existing tags are untouched and a new
   * tag is made only for a name no tag had.
   */
  method AttachToTask(db: Database, t: TaskId, names: seq<string>)
    requires db.Valid() && t in db.tasks
    modifies db
    ensures db.Valid()
    ensures TaggedExactly(db.tags, db.taskTags, t, names)
    ensures GrownBy(old(db.tags), db.tags, names)
    ensures forall u :: u != t ==> TagsOfTask(db.taskTags, u) == TagsOfTask(old(db.taskTags), u)
    ensures db.State() == old(db.State()).(tags := db.tags, nextTagId := db.nextTagId, taskTags := db.taskTags)
  {
    var ids := FindOrCreateAll(db, names);
    db.taskTags := SyncRel(db.taskTags, t, ids);
    forall g | g in db.tags && db.tags[g].name in names
      ensures g in TagsOfTask(db.taskTags, t)
    {
      var j :| 0 <= j < |names| && names[j] == db.tags[g].name;
      assert ids[j] == g;
    }
    forall n | n in names
      ensures exists g :: g in TagsOfTask(db.taskTags, t) && g in db.tags && db.tags[g].name == n
    {
      var j :| 0 <= j < |names| && names[j] == n;
      assert ids[j] in TagsOfTask(db.taskTags, t);
    }
  }

  /** `detachFromTask`: removes one association and leaves every other one. */
  method DetachFromTask(db: Database, t: TaskId, g: TagId)
    requires db.Valid()
    modifies db
    ensures db.Valid()
    ensures db.State() == old(db.State()).(taskTags := DetachRel(old(db.taskTags), t, g))
  {
    db.taskTags := DetachRel(db.taskTags, t, g);
  }

  /** After attaching names to one of the user's tasks, every named tag is in the user's tag list. */
  lemma {:induction false} AttachedTagsAreListed(tasks: map<TaskId, Task>, tags: map<TagId, Tag>, rel: set<(TaskId, TagId)>, user: UserId, t: TaskId, g: TagId)
    requires OwnedBy(tasks, t, user)
    requires g in tags && g in TagsOfTask(rel, t)
    ensures g in List(tasks, tags, rel, user)
  {
    var p :| p in rel && p.0 == t && p.1 == g;
    assert UsedBy(tasks, rel, g, user);
  }

  /** After attaching names to a task, looking those names up gives back exactly the task's tags. */
  lemma FindByNamesMatchesAttached(tags: map<TagId, Tag>, rel: set<(TaskId, TagId)>, t: TaskId, names: seq<string>)
    requires forall g :: g in TagsOfTask(rel, t) <==> g in tags && tags[g].name in names
    ensures FindByNames(tags, names) == TagsOfTask(rel, t)
  {
    forall g ensures g in FindByNames(tags, names) <==> g in TagsOfTask(rel, t) {
    }
  }
}

=== FILE: tag_update_request.dfy ===
/**
 * The tag update request (app/Http/Requests/Tag/TagUpdateRequest.php):
 * a required name of at most 50 characters that no other tag holds.
 */
module TagUpdateRequest {
  import opened Wrappers
  import opened Schema
  import opened FormInput
  import Db
  import TagService

  /** The longest tag name accepted. */
  const MaxName: int := 50

  /**
   * `unique:tags,name,<id>`: no tag row holds `name`, except the one whose id
   * is the route's `id` parameter. A missing parameter ignores no row.
   */
  function UniqueName(tags: map<TagId, Tag>, name: string, routeId: Option<TagId>): (r: bool)
    ensures r <==> forall h :: h in tags && tags[h].name == name ==> routeId == Some(h)
  {
    forall h :: h in tags && Some(h) != routeId ==> tags[h].name != name
  }

  /** name: required, string, max:50, unique except the routed tag. */
  function Passes(tags: map<TagId, Tag>, input: Input, routeId: Option<TagId>): (r: bool)
    ensures r ==> "name" in input && input["name"].Str? && input["name"].s != "" && |input["name"].s| <= MaxName
    ensures r ==> UniqueName(tags, input["name"].s, routeId)
    ensures "name" !in input || !input["name"].Str? || input["name"].s == "" ==> !r
  {
    RequiredStringAtMost(input, "name", MaxName) && UniqueName(tags, input["name"].s, routeId)
  }

  /** A passing request for tag `g` satisfies the rename's precondition: no other tag holds the name. */
  lemma PassesMakesNameFree(tags: map<TagId, Tag>, input: Input, g: TagId)
    requires Passes(tags, input, Some(g))
    ensures input["name"].s != "" && |input["name"].s| <= MaxName
    ensures TagService.NameFreeFor(tags, g, input["name"].s)
  {
  }

  /** Keeping a tag's current (valid) name passes: the routed tag is left out of the uniqueness check. */
  lemma KeepingOwnNamePasses(tags: map<TagId, Tag>, g: TagId)
    requires Db.UniqueTagNames(tags) && g in tags
    requires tags[g].name != "" && |tags[g].name| <= MaxName
    ensures Passes(tags, map["name" := Str(tags[g].name)], Some(g))
  {
  }

  /** The name of any other tag is refused. */
  lemma TakenNameFails(tags: map<TagId, Tag>, input: Input, routeId: Option<TagId>, h: TagId)
    requires h in tags && Some(h) != routeId
    requires "name" in input && input["name"] == Str(tags[h].name)
    ensures !Passes(tags, input, routeId)
  {
  }
}

=== FILE: task_controller.dfy ===
/**
 * The task API controller (app/Http/Controllers/Api/TaskController.php):
 * normalises the listing query, and for each per-task action looks the
 * task up (404), asks the policy (401/403) and only then calls the service.
 */
module TaskController {
  import opened Wrappers
  import opened Schema
  import opened Db
  import TaskService
  import TaskPolicy
  import TaskUpdateRequest
  import FormInput
  import Php
  import PreventGuestActions

  // ---------------------------------------------------------------------
  // Routing

  /** The controller's actions, as routes/api.php names them. */
  datatype Action = Index | Store | Show | Update | Destroy | Complete | Incomplete | Archive | Restore

  /** The actions the route table wraps in the guest gate: all but the listing. */
  predicate GuestBlocked(a: Action) {
    a != Index
  }

  /** Restore is gated like every other task action. */
  lemma RestoreIsGuestBlocked()
    ensures GuestBlocked(Restore) && GuestBlocked(Archive) && !GuestBlocked(Index)
  {
  }

  // ---------------------------------------------------------------------
  // Listing

  /** A query-string value. */
  datatype QueryValue = QNull | QStr(s: string)

  /** The request's query. */
  type Query = map<string, QueryValue>

  /** `array_filter` dropping every value that is null or ''. */
  function DropBlank(q: Query): (f: TaskService.Filters)
    ensures forall k :: k in f <==> k in q && q[k] != QNull && q[k] != QStr("")
    ensures forall k :: k in f ==> q[k] == QStr(f[k]) && f[k] != ""
  {
    assert forall k :: k in q ==> (q[k] != QNull && q[k] != QStr("") <==> q[k].QStr? && q[k].s != "");
    map k | k in q && q[k].QStr? && q[k].s != "" :: q[k].s
  }

  /** The filters `index` hands to the service: non-blank values, with the sort defaults filled in. */
  function IndexFilters(q: Query): (f: TaskService.Filters)
    ensures "sortBy" in f && "sortDirection" in f
    ensures f["sortBy"] == if "sortBy" in DropBlank(q) then DropBlank(q)["sortBy"] else "created_at"
    ensures f["sortDirection"] == if "sortDirection" in DropBlank(q) then DropBlank(q)["sortDirection"] else "desc"
    ensures forall k :: k != "sortBy" && k != "sortDirection" ==>
              (k in f <==> k in DropBlank(q)) && (k in f ==> f[k] == DropBlank(q)[k])
  {
    var f := DropBlank(q);
    var f := if "sortBy" in f then f else f["sortBy" := "created_at"];
    if "sortDirection" in f then f else f["sortDirection" := "desc"]
  }

  /** Filling in the defaults selects the same rows. */
  lemma IndexDefaultsSelectSameRows(tasks: map<TaskId, Task>, user: UserId, q: Query, parseDate: string -> Date)
    ensures TaskService.ListingIds(tasks, user, IndexFilters(q), parseDate) == TaskService.ListingIds(tasks, user, DropBlank(q), parseDate)
  {
    forall k | k in TaskService.FilterKeys
      ensures TaskService.SameAt(IndexFilters(q), DropBlank(q), k)
    {
    }
    TaskService.OnlyFilterKeysMatter(tasks, user, IndexFilters(q), DropBlank(q), parseDate);
  }

  /** Filling in the defaults sorts the same way and shows the same page. */
  lemma IndexDefaultsSortTheSame(q: Query)
    ensures TaskService.SortColumn(IndexFilters(q)) == TaskService.SortColumn(DropBlank(q))
    ensures TaskService.SortDirection(IndexFilters(q)) == TaskService.SortDirection(DropBlank(q))
    ensures TaskService.CurrentPage(IndexFilters(q)) == TaskService.CurrentPage(DropBlank(q))
  {
    var a, b := IndexFilters(q), DropBlank(q);
    assert ("page" in a <==> "page" in b) && ("page" in a ==> a["page"] == b["page"]);
    assert TaskService.CurrentPage(a) == TaskService.CurrentPage(b);
    assert "created_at" in TaskService.SortColumns;
    assert TaskService.SortColumn(a) == TaskService.SortColumn(b);
    var lower := Php.ToLower("desc");
    assert lower[0] == 'd' && lower[1] == 'e' && lower[2] == 's' && lower[3] == 'c';
    assert lower == "desc";
  }

  /**
   * `index`: one page of the user's tasks under the normalised query, at the
   * service's default page size. `ordered` is the selected rows in the
   * database's sort order.
   */
  function IndexPage(tasks: map<TaskId, Task>, user: User, q: Query, parseDate: string -> Date, ordered: seq<TaskId>): (r: TaskService.Page)
    requires TaskService.Distinct(ordered)
    requires forall id :: id in ordered <==> id in TaskService.ListingIds(tasks, user.id, IndexFilters(q), parseDate)
    ensures r.perPage == TaskService.DefaultPerPage
    ensures |r.items| <= TaskService.DefaultPerPage
    ensures r.items == TaskService.PageOf(ordered, TaskService.CurrentPage(DropBlank(q)), TaskService.DefaultPerPage)
    ensures r.currentPage == TaskService.CurrentPage(DropBlank(q))
    ensures r.sortBy == TaskService.SortColumn(DropBlank(q)) && r.sortDirection == TaskService.SortDirection(DropBlank(q))
    ensures forall id :: id in r.items ==> id in TaskService.ListingIds(tasks, user.id, DropBlank(q), parseDate)
    ensures r.total == |TaskService.ListingIds(tasks, user.id, DropBlank(q), parseDate)|
  {
    IndexDefaultsSelectSameRows(tasks, user.id, q, parseDate);
    IndexDefaultsSortTheSame(q);
    TaskService.List(tasks, user.id, IndexFilters(q), TaskService.DefaultPerPage, parseDate, ordered)
  }

  // ---------------------------------------------------------------------
  // Per-task actions

  /** What an action answers. */
  datatype Outcome = Ok(id: TaskId) | NoContent | NotFound | Refused(status: int, message: string) | Invalid(fields: set<string>)

  /** The policy ability an action asks for. */
  datatype Ability = CanView | CanUpdate | CanDelete | CanComplete

  /** The policy's decision for one ability. */
  function Decide(user: User, task: Task, ability: Ability): TaskPolicy.Decision {
    match ability
    case CanView => TaskPolicy.View(user, task)
    case CanUpdate => TaskPolicy.Update(user, task)
    case CanDelete => TaskPolicy.Delete(user, task)
    case CanComplete => TaskPolicy.Complete(user, task)
  }

  /**
   * `$this->authorize($ability, Task::findOrFail($id))`: None when the action
   * may go on, otherwise its answer: 404 for a missing or deleted task,
   * then the policy's 401 or 403.
   */
  function Gate(tasks: map<TaskId, Task>, user: User, id: TaskId, ability: Ability): (r: Option<Outcome>)
    ensures r.None? <==> FindTask(tasks, id).Some? && Decide(user, tasks[id], ability).Allow?
    ensures FindTask(tasks, id).None? ==> r == Some(NotFound)
    ensures FindTask(tasks, id).Some? && !Decide(user, tasks[id], ability).Allow? ==>
              r == Some(Refused(TaskPolicy.Status(Decide(user, tasks[id], ability)), Decide(user, tasks[id], ability).message))
    ensures r.Some? ==> r.value.NotFound? || r.value.Refused?
  {
    match FindTask(tasks, id)
    case None => Some(NotFound)
    case Some(task) =>
      var d := Decide(user, task, ability);
      if d.Allow? then None else Some(Refused(TaskPolicy.Status(d), d.message))
  }

  /**
   * The lookup comes first: a signed-in user asking for a missing task gets
   * 404, and another user's task gets 403 only once it is found.
   */
  lemma LookupBeforeAuthorize(tasks: map<TaskId, Task>, user: User, id: TaskId, ability: Ability)
    requires !user.isGuest
    ensures FindTask(tasks, id).None? ==> Gate(tasks, user, id, ability) == Some(NotFound)
    ensures FindTask(tasks, id).Some? && tasks[id].userId != user.id ==>
              Gate(tasks, user, id, ability).Some? && Gate(tasks, user, id, ability).value.status == 403
    ensures FindTask(tasks, id).Some? && tasks[id].userId == user.id ==> Gate(tasks, user, id, ability).None?
  {
  }

  // ---------------------------------------------------------------------
  // The route stack

  /** What a task route answers: the guest gate's response around the controller's outcome. */
  type Answer = PreventGuestActions.Response<Outcome>

  /**
   * One request through routes/api.php: the guest gate runs first on every
   * gated action, and only a forwarded request reaches the controller,
   * whose answer is `answer`.
   */
  function Endpoint(a: Action, user: User, expectsJson: bool, answer: Outcome): (r: Answer)
    ensures r.Forwarded? <==> !GuestBlocked(a) || !user.isGuest
    ensures r.Forwarded? ==> r.response == answer
    ensures GuestBlocked(a) && user.isGuest && expectsJson ==> r == PreventGuestActions.Json(401, PreventGuestActions.GuestMessage)
  {
    if GuestBlocked(a) then PreventGuestActions.Handle((), Some(user), expectsJson, (_: ()) => answer)
    else PreventGuestActions.Forwarded(answer)
  }

  /**
   * A guest never reaches a gated action: the answer is the gate's, whatever
   * the controller would have said (no 404, no 422, no policy message).
   */
  lemma GuestStoppedBeforeAction(a: Action, user: User, expectsJson: bool, answer1: Outcome, answer2: Outcome)
    requires user.isGuest && GuestBlocked(a)
    ensures !Endpoint(a, user, expectsJson, answer1).Forwarded?
    ensures Endpoint(a, user, expectsJson, answer1) == Endpoint(a, user, expectsJson, answer2)
  {
  }

  /** `show`: the task, when it exists and the policy's `view` allows. */
  function ShowTask(tasks: map<TaskId, Task>, user: User, id: TaskId): (r: Outcome)
    ensures r == Ok(id) <==> OwnedBy(tasks, id, user.id) && !user.isGuest
    ensures r != Ok(id) ==> Some(r) == Gate(tasks, user, id, CanView)
  {
    match Gate(tasks, user, id, CanView)
    case Some(refusal) => refusal
    case None => Ok(id)
  }

  /** `store`: the policy's `create`, then the service's `create`. */
  method StoreTask(db: Database, user: User, data: TaskService.TaskData, paths: seq<string>) returns (r: Outcome)
    requires db.Valid() && user.id == db.userId && |paths| == |data.attachments|
    modifies db
    ensures db.Valid()
    ensures r.Ok? <==> !user.isGuest
    ensures user.isGuest ==> r == Refused(401, "Guest users cannot create tasks.") && db.State() == old(db.State())
    ensures r.Ok? ==> TaskService.Created(old(db.State()), db.State(), data, paths, r.id)
  {
    var d := TaskPolicy.Create(user);
    if !d.Allow? {
      return Refused(TaskPolicy.Status(d), d.message);
    }
    var id := TaskService.Create(db, data, paths);
    r := Ok(id);
  }

  /**
   * `update`: the request is validated first (422), then the task is looked
   * up and authorized, then updated.
   */
  method UpdateTask(db: Database, user: User, id: TaskId, input: FormInput.Input, today: Date,
                    parseDate: string -> Option<Date>, paths: seq<string>) returns (r: Outcome)
    requires db.Valid() && user.id == db.userId
    requires TaskUpdateRequest.Validate(input, today, parseDate).Validated? ==>
               |paths| == |TaskUpdateRequest.Validate(input, today, parseDate).data.attachments|
    modifies db
    ensures db.Valid()
    ensures r.Invalid? <==> TaskUpdateRequest.Validate(input, today, parseDate).Invalid?
    ensures r.Invalid? ==> r.fields == TaskUpdateRequest.Errors(input, today, parseDate)
    ensures !r.Invalid? ==> (r == Ok(id) <==> Gate(old(db.tasks), user, id, CanUpdate).None?)
    ensures !r.Invalid? && r != Ok(id) ==> Some(r) == Gate(old(db.tasks), user, id, CanUpdate)
    ensures r != Ok(id) ==> db.State() == old(db.State())
    ensures r == Ok(id) ==> TaskService.Updated(old(db.State()), db.State(), id, TaskUpdateRequest.Validate(input, today, parseDate).data, paths)
  {
    var v := TaskUpdateRequest.Validate(input, today, parseDate);
    if v.Invalid? {
      return Invalid(v.fields);
    }
    var g := Gate(db.tasks, user, id, CanUpdate);
    if g.Some? {
      return g.value;
    }
    var found := TaskService.Update(db, id, v.data, paths);
    r := Ok(id);
  }

  /** `destroy`: look up, authorize `delete`, then soft-delete; 204 on success. */
  method DestroyTask(db: Database, user: User, id: TaskId) returns (r: Outcome)
    requires db.Valid() && user.id == db.userId
    modifies db
    ensures db.Valid()
    ensures r == NoContent <==> Gate(old(db.tasks), user, id, CanDelete).None?
    ensures r != NoContent ==> Some(r) == Gate(old(db.tasks), user, id, CanDelete) && db.State() == old(db.State())
    ensures r == NoContent ==> db.State() == old(db.State()).(
              tasks := old(db.tasks)[id := old(db.tasks)[id].(deletedAt := Some(old(db.now)))],
              files := old(db.files) - PathsOf(old(db.attachments), AttachmentsOf(old(db.attachments), id)))
  {
    var g := Gate(db.tasks, user, id, CanDelete);
    if g.Some? {
      return g.value;
    }
    var found := TaskService.Delete(db, id);
    r := NoContent;
  }

  /** `complete`: look up, authorize `complete`, then toggle `completed_at`. */
  method CompleteTask(db: Database, user: User, id: TaskId) returns (r: Outcome)
    requires db.Valid() && user.id == db.userId
    modifies db
    ensures db.Valid()
    ensures r == Ok(id) <==> Gate(old(db.tasks), user, id, CanComplete).None?
    ensures r != Ok(id) ==> Some(r) == Gate(old(db.tasks), user, id, CanComplete) && db.State() == old(db.State())
    ensures r == Ok(id) ==> db.State() == old(db.State()).(tasks := old(db.tasks)[id := old(db.tasks)[id].(completedAt :=
              TaskService.ToggledCompletion(old(db.tasks)[id].completedAt, old(db.now)))])
  {
    var g := Gate(db.tasks, user, id, CanComplete);
    if g.Some? {
      return g.value;
    }
    var found := TaskService.ToggleComplete(db, id);
    r := Ok(id);
  }

  /**
   * `incomplete`: the same steps as `complete`, so it toggles too: on a task
   * that is not completed it marks it completed.
   */
  method IncompleteTask(db: Database, user: User, id: TaskId) returns (r: Outcome)
    requires db.Valid() && user.id == db.userId
    modifies db
    ensures db.Valid()
    ensures r == Ok(id) <==> Gate(old(db.tasks), user, id, CanComplete).None?
    ensures r != Ok(id) ==> Some(r) == Gate(old(db.tasks), user, id, CanComplete) && db.State() == old(db.State())
    ensures r == Ok(id) ==> id in db.tasks && db.State() == old(db.State()).(tasks := old(db.tasks)[id := old(db.tasks)[id].(completedAt := db.tasks[id].completedAt)])
    ensures r == Ok(id) && old(db.tasks)[id].completedAt.None? ==> db.tasks[id].completedAt == Some(old(db.now))
    ensures r == Ok(id) && old(db.tasks)[id].completedAt.Some? ==> db.tasks[id].completedAt.None?
  {
    var g := Gate(db.tasks, user, id, CanComplete);
    if g.Some? {
      return g.value;
    }
    var found := TaskService.ToggleComplete(db, id);
    r := Ok(id);
  }

  // ---------------------------------------------------------------------
  // Archive and restore

  /** What `archive` and `restore` answer as written: they check only that the task exists. */
  function ArchiveAnswer(tasks: map<TaskId, Task>, id: TaskId): (r: Outcome)
    ensures r == Ok(id) <==> FindTask(tasks, id).Some?
    ensures r != Ok(id) ==> r == NotFound
  {
    if FindTask(tasks, id).Some? then Ok(id) else NotFound
  }

  /** As written, another user's task is archived: the answer is 200 where the policy says 403. */
  lemma ArchiveSkipsOwnership()
    ensures var owner := User(1, "owner", "owner@example.com", "secret", false);
            var other := User(2, "other", "other@example.com", "secret", false);
            var tasks := map[7 := Task(owner.id, "t", "d", None, Normal, 1, None, None, None, 0)];
            ArchiveAnswer(tasks, 7) == Ok(7) && TaskPolicy.Status(TaskPolicy.Update(other, tasks[7])) == 403
  {
  }

  /** `archive` / `restore` as written: no authorize step, then the service's toggle. */
  method ArchiveTask(db: Database, id: TaskId, status: TaskService.TaskStatus) returns (r: Outcome)
    requires db.Valid()
    modifies db
    ensures db.Valid()
    ensures r == ArchiveAnswer(old(db.tasks), id)
    ensures r == NotFound ==> db.State() == old(db.State())
    ensures r == Ok(id) ==> db.State() == old(db.State()).(tasks := old(db.tasks)[id := old(db.tasks)[id].(archivedAt := TaskService.ArchivedValue(status, old(db.now)))])
  {
    var found := TaskService.ToggleArchive(db, id, status);
    r := if found then Ok(id) else NotFound;
  }

  /** `archive` / `restore` with the ownership check the other task actions make (the policy's `update`). */
  function OwnArchiveAnswer(tasks: map<TaskId, Task>, user: User, id: TaskId): (r: Outcome)
    ensures r == Ok(id) <==> OwnedBy(tasks, id, user.id) && !user.isGuest
    ensures r != Ok(id) ==> Some(r) == Gate(tasks, user, id, CanUpdate)
  {
    match Gate(tasks, user, id, CanUpdate)
    case Some(refusal) => refusal
    case None => Ok(id)
  }

  /** `archive` / `restore` that change only the caller's own tasks. */
  method ArchiveOwnTask(db: Database, user: User, id: TaskId, status: TaskService.TaskStatus) returns (r: Outcome)
    requires db.Valid() && user.id == db.userId
    modifies db
    ensures db.Valid()
    ensures r == OwnArchiveAnswer(old(db.tasks), user, id)
    ensures r != Ok(id) ==> db.State() == old(db.State())
    ensures r == Ok(id) ==> db.State() == old(db.State()).(tasks := old(db.tasks)[id := old(db.tasks)[id].(archivedAt := TaskService.ArchivedValue(status, old(db.now)))])
  {
    r := OwnArchiveAnswer(db.tasks, user, id);
    if r == Ok(id) {
      var found := TaskService.ToggleArchive(db, id, status);
    }
  }

  /** With the check, another user's task is refused and left alone. */
  lemma OwnArchiveRefusesOthers(tasks: map<TaskId, Task>, user: User, id: TaskId)
    requires FindTask(tasks, id).Some? && tasks[id].userId != user.id
    ensures OwnArchiveAnswer(tasks, user, id).Refused?
    ensures OwnArchiveAnswer(tasks, user, id).status == 401 || OwnArchiveAnswer(tasks, user, id).status == 403
  {
  }
}

=== FILE: task_model.dfy ===
/**
 * The Task model (app/Models/Task.php): its query scopes as predicates on a
 * row, the soft-delete visibility every ordinary query applies, and the
 * mass-assignment filter.
 */
module TaskModel {
  import opened Schema

  /** `SoftDeletes`: ordinary queries only see rows whose `deleted_at` is null. */
  function NotTrashed(t: Task): (r: bool)
    ensures r <==> !t.deletedAt.Some?
  {
    t.deletedAt.None?
  }

  /** `scopeActive`: not archived. */
  function Active(t: Task): (r: bool)
    ensures r <==> !t.archivedAt.Some?
  {
    t.archivedAt.None?
  }

  /** `scopeArchived`: the complement of `scopeActive`. */
  function Archived(t: Task): (r: bool)
    ensures r <==> !Active(t)
  {
    t.archivedAt.Some?
  }

  /** `scopeCompleted`. */
  function Completed(t: Task): (r: bool)
    ensures r <==> !t.completedAt.None?
  {
    t.completedAt.Some?
  }

  /** `scopeIncomplete`: the complement of `scopeCompleted`. */
  function Incomplete(t: Task): (r: bool)
    ensures r <==> !Completed(t)
  {
    t.completedAt.None?
  }

  /** `scopePriority($p)`: keeps exactly the rows whose priority is `p`. */
  function HasPriority(t: Task, p: Priority): (r: bool)
    ensures r <==> PriorityName(t.priority) == PriorityName(p)
  {
    t.priority == p
  }

  /** The `$fillable` attribute names. */
  const Fillable: set<string> :=
    {"user_id", "title", "description", "due_date", "priority", "task_order", "completed_at", "archived_at"}

  /**
   * Mass assignment (`Task::create`, `$task->update`): attributes outside
   * `$fillable` are dropped, the rest are kept as given.
   */
  function Fill<V>(attributes: map<string, V>): (r: map<string, V>)
    ensures r.Keys <= Fillable
    ensures forall k :: k in attributes && k in Fillable ==> k in r && r[k] == attributes[k]
    ensures r.Keys <= attributes.Keys
  {
    map k | k in attributes && k in Fillable :: attributes[k]
  }

  /** The key, the timestamps and the soft-delete marker can never be mass assigned. */
  lemma GuardedColumnsNeverFilled<V>(attributes: map<string, V>)
    ensures "id" !in Fill(attributes)
    ensures "deleted_at" !in Fill(attributes)
    ensures "created_at" !in Fill(attributes) && "updated_at" !in Fill(attributes)
  {
  }
}

=== FILE: task_policy.dfy ===
/**
 * The task policy (app/Policies/TaskPolicy.php): which user may view,
 * create, update, delete or complete which task. A guest is refused with
 * 401 before ownership is looked at; a non-owner is refused with 403.
 */
module TaskPolicy {
  import opened Schema

  /**
   * A policy answer: allow; `Response::deny` (or a `false` return), which
   * Laravel turns into 403; or a thrown 401 `HttpException`.
   */
  datatype Decision = Allow | Deny(message: string) | Unauthorized(message: string)

  /** The HTTP status a decision produces; 200 stands for "go on". */
  function Status(d: Decision): (code: int)
    ensures code == 200 <==> d.Allow?
    ensures code == 403 <==> d.Deny?
    ensures code == 401 <==> d.Unauthorized?
  {
    match d
    case Allow => 200
    case Deny(_) => 403
    case Unauthorized(_) => 401
  }

  /** The message Laravel gives when a policy method returns false. */
  const DefaultDenial: string := "This action is unauthorized."

  /** `viewAny`: every authenticated user may list tasks. */
  function ViewAny(user: User): (d: Decision)
    ensures d == Allow
  {
    Allow
  }

  /** `view`: guests are refused with 401; otherwise only the owner may look. */
  function View(user: User, task: Task): (d: Decision)
    ensures d.Unauthorized? <==> user.isGuest
    ensures d.Unauthorized? ==> d.message == "Guest users cannot view tasks."
    ensures !user.isGuest ==> (d == Allow <==> user.id == task.userId)
    ensures d.Deny? ==> d.message == DefaultDenial
  {
    if user.isGuest then Unauthorized("Guest users cannot view tasks.")
    else if user.id == task.userId then Allow
    else Deny(DefaultDenial)
  }

  /** `create`: guests are refused with 401, everybody else may create. */
  function Create(user: User): (d: Decision)
    ensures d.Unauthorized? <==> user.isGuest
    ensures d.Unauthorized? ==> d.message == "Guest users cannot create tasks."
    ensures !user.isGuest ==> d == Allow
  {
    if user.isGuest then Unauthorized("Guest users cannot create tasks.") else Allow
  }

  /**
   * The shape shared by `update`, `delete` and `complete`: a guest is
   * refused with 401, a non-owner with 403 and an action-specific message.
   */
  function OwnerOnly(user: User, task: Task, verb: string): (d: Decision)
    ensures d.Unauthorized? <==> user.isGuest
    ensures d.Unauthorized? ==> d.message == "Guest users cannot " + verb + " tasks."
    ensures !user.isGuest ==> (d == Allow <==> user.id == task.userId)
    ensures d.Deny? ==> d.message == "You can only " + verb + " your own tasks."
  {
    if user.isGuest then Unauthorized("Guest users cannot " + verb + " tasks.")
    else if user.id != task.userId then Deny("You can only " + verb + " your own tasks.")
    else Allow
  }

  /** `update`. */
  function Update(user: User, task: Task): (d: Decision)
    ensures d.Unauthorized? <==> user.isGuest
    ensures d.Unauthorized? ==> d.message == "Guest users cannot update tasks."
    ensures !user.isGuest ==> (d == Allow <==> user.id == task.userId)
    ensures d.Deny? ==> d.message == "You can only update your own tasks."
  {
    OwnerOnly(user, task, "update")
  }

  /** `delete`. */
  function Delete(user: User, task: Task): (d: Decision)
    ensures d.Unauthorized? <==> user.isGuest
    ensures d.Unauthorized? ==> d.message == "Guest users cannot delete tasks."
    ensures !user.isGuest ==> (d == Allow <==> user.id == task.userId)
    ensures d.Deny? ==> d.message == "You can only delete your own tasks."
  {
    OwnerOnly(user, task, "delete")
  }

  /** `complete`. */
  function Complete(user: User, task: Task): (d: Decision)
    ensures d.Unauthorized? <==> user.isGuest
    ensures d.Unauthorized? ==> d.message == "Guest users cannot complete tasks."
    ensures !user.isGuest ==> (d == Allow <==> user.id == task.userId)
    ensures d.Deny? ==> d.message == "You can only complete your own tasks."
  {
    OwnerOnly(user, task, "complete")
  }

  /** A guest gets 401 from every task ability but `viewAny`, even on a task the guest owns. */
  lemma GuestIsUnauthorized(user: User, task: Task)
    requires user.isGuest
    ensures Status(View(user, task)) == 401 && Status(Create(user)) == 401
    ensures Status(Update(user, task)) == 401 && Status(Delete(user, task)) == 401
    ensures Status(Complete(user, task)) == 401
  {
  }

  /** For a non-guest, every per-task ability is granted exactly to the owner. */
  lemma OwnerDecides(user: User, task: Task)
    requires !user.isGuest
    ensures Status(View(user, task)) == 200 <==> user.id == task.userId
    ensures Status(Update(user, task)) == 200 <==> user.id == task.userId
    ensures Status(Delete(user, task)) == 200 <==> user.id == task.userId
    ensures Status(Complete(user, task)) == 200 <==> user.id == task.userId
    ensures user.id != task.userId ==> Status(Update(user, task)) == 403 && Status(View(user, task)) == 403
  {
  }
}

=== FILE: task_service.dfy ===
/**
 * The task service (app/Services/TaskService.php): the filtered, sorted and
 * paginated listing of the current user's tasks, and the operations that
 * create, update, toggle, delete and reorder tasks.
 */
module TaskService {
  import opened Wrappers
  import opened Schema
  import opened Db
  import TaskModel
  import AttachmentModel
  import TagService
  import Php
  import Ordering

  // ---------------------------------------------------------------------
  // Listing

  /** The listing's input: request keys to (non-null) string values. */
  type Filters = map<string, string>

  /** The key is present with a value PHP's `empty` does not reject. */
  predicate Given(f: Filters, key: string) {
    key in f && !Php.Empty(f[key])
  }

  /** `archived` is present and exactly 'true'. */
  predicate WantsArchived(f: Filters) {
    "archived" in f && f["archived"] == "true"
  }

  /**
   * The conditions other than ownership and the archive partition: title
   * search, exact priority, completion status and inclusive due-date bounds.
   * A task with no due date never passes a date bound (SQL comparison with
   * NULL).
   */
  predicate MatchesFilters(t: Task, f: Filters, parseDate: string -> Date) {
    && (Given(f, "search") ==> Php.Contains(t.title, f["search"]))
    && (Given(f, "priority") ==> PriorityName(t.priority) == f["priority"])
    && ("status" in f && f["status"] == "completed" ==> TaskModel.Completed(t))
    && ("status" in f && f["status"] == "todo" ==> TaskModel.Incomplete(t))
    && (Given(f, "dateFrom") ==> t.dueDate.Some? && parseDate(f["dateFrom"]) <= t.dueDate.value)
    && (Given(f, "dateTo") ==> t.dueDate.Some? && t.dueDate.value <= parseDate(f["dateTo"]))
  }

  /** 'archived' = 'true' selects archived tasks, anything else the unarchived ones. */
  predicate InArchivePartition(t: Task, f: Filters) {
    if WantsArchived(f) then TaskModel.Archived(t) else TaskModel.Active(t)
  }

  /** A row the listing query selects. */
  predicate Listed(tasks: map<TaskId, Task>, id: TaskId, user: UserId, f: Filters, parseDate: string -> Date) {
    OwnedBy(tasks, id, user) && MatchesFilters(tasks[id], f, parseDate) && InArchivePartition(tasks[id], f)
  }

  /** All rows the listing query selects, before sorting and paging. */
  function ListingIds(tasks: map<TaskId, Task>, user: UserId, f: Filters, parseDate: string -> Date): (r: set<TaskId>)
    ensures forall id :: id in r <==>
              id in tasks && tasks[id].userId == user && tasks[id].deletedAt.None? &&
              (WantsArchived(f) ==> tasks[id].archivedAt.Some?) && (!WantsArchived(f) ==> tasks[id].archivedAt.None?) &&
              MatchesFilters(tasks[id], f, parseDate)
  {
    set id | id in tasks && Listed(tasks, id, user, f, parseDate)
  }

  /** The request keys the listing's conditions read. */
  const FilterKeys: set<string> := {"search", "priority", "status", "dateFrom", "dateTo", "archived"}

  /** Two filter maps agree on key `k`. */
  predicate SameAt(f: Filters, g: Filters, k: string) {
    (k in f <==> k in g) && (k in f ==> f[k] == g[k])
  }

  /** The selected rows depend only on the filter keys: sorting and paging keys select nothing. */
  lemma OnlyFilterKeysMatter(tasks: map<TaskId, Task>, user: UserId, f: Filters, g: Filters, parseDate: string -> Date)
    requires forall k :: k in FilterKeys ==> SameAt(f, g, k)
    ensures ListingIds(tasks, user, f, parseDate) == ListingIds(tasks, user, g, parseDate)
  {
    assert SameAt(f, g, "search") && SameAt(f, g, "priority") && SameAt(f, g, "status");
    assert SameAt(f, g, "dateFrom") && SameAt(f, g, "dateTo") && SameAt(f, g, "archived");
    assert forall t :: MatchesFilters(t, f, parseDate) == MatchesFilters(t, g, parseDate);
    assert forall t :: InArchivePartition(t, f) == InArchivePartition(t, g);
  }

  /** The columns a listing may be sorted by. */
  const SortColumns: seq<string> := ["created_at", "due_date", "priority", "completed_at"]

  /** sortBy: an allowed column is kept, anything else becomes 'created_at'. */
  function SortColumn(f: Filters): (r: string)
    ensures r in SortColumns
    ensures "sortBy" in f && f["sortBy"] in SortColumns ==> r == f["sortBy"]
    ensures !("sortBy" in f && f["sortBy"] in SortColumns) ==> r == "created_at"
  {
    var requested := if "sortBy" in f then f["sortBy"] else "";
    if requested in SortColumns then requested else "created_at"
  }

  /** sortDirection: lower-cased; 'asc' and 'desc' are kept, anything else becomes 'desc'. */
  function SortDirection(f: Filters): (r: string)
    ensures r == "asc" || r == "desc"
    ensures r == "asc" <==> "sortDirection" in f && Php.ToLower(f["sortDirection"]) == "asc"
  {
    var requested := Php.ToLower(if "sortDirection" in f then f["sortDirection"] else "");
    if requested == "asc" || requested == "desc" then requested else "desc"
  }

  /** page = max(1, intval(page)), 1 when absent. */
  function CurrentPage(f: Filters): (r: int)
    ensures r >= 1
    ensures "page" in f && Php.IntVal(f["page"]) >= 1 ==> r == Php.IntVal(f["page"])
    ensures "page" in f && Php.IntVal(f["page"]) < 1 ==> r == 1
    ensures "page" !in f ==> r == 1
  {
    Php.Max(1, Php.IntVal(if "page" in f then f["page"] else "1"))
  }

  /** The largest page size a listing returns. */
  const MaxPerPage: int := 50

  /** The page size the listing uses when its caller names none. */
  const DefaultPerPage: int := 10

  /** perPage clamped into [1, 50]. */
  function ClampPerPage(perPage: int): (r: int)
    ensures 1 <= r <= MaxPerPage
    ensures 1 <= perPage <= MaxPerPage ==> r == perPage
    ensures perPage < 1 ==> r == 1
    ensures perPage > MaxPerPage ==> r == MaxPerPage
  {
    Php.Max(1, Php.Min(MaxPerPage, perPage))
  }

  /** The number of rows before page `page`: `perPage` for every earlier page. */
  function Offset(page: int, perPage: nat): (n: nat)
    requires page >= 1
    decreases page
  {
    if page == 1 then 0 else Offset(page - 1, perPage) + perPage
  }

  /** The offset is the paginator's `(page - 1) * perPage`. */
  lemma {:induction false} OffsetIsProduct(page: int, perPage: nat)
    requires page >= 1
    ensures Offset(page, perPage) == (page - 1) * perPage
    decreases page
  {
    if page > 1 {
      OffsetIsProduct(page - 1, perPage);
      assert (page - 1) * perPage == (page - 2) * perPage + perPage;
    }
  }

  /** Rows `Offset(page, perPage)` up to `Offset(page, perPage) + perPage` of an ordered result. */
  function PageOf(ordered: seq<TaskId>, page: int, perPage: int): (r: seq<TaskId>)
    requires page >= 1 && perPage >= 1
    ensures |r| <= perPage
    ensures |r| == Php.Min(perPage, Php.Max(0, |ordered| - Offset(page, perPage)))
    ensures forall i :: 0 <= i < |r| ==> r[i] == ordered[Offset(page, perPage) + i]
    ensures forall id :: id in r ==> id in ordered
    ensures Offset(page, perPage) < |ordered| ==> r != []
  {
    var skip := Offset(page, perPage);
    if skip >= |ordered| then [] else ordered[skip..Php.Min(skip + perPage, |ordered|)]
  }

  /** A page of the listing, with the normalised request that produced it. */
  datatype Page = Page(items: seq<TaskId>, total: int, currentPage: int, perPage: int, sortBy: string, sortDirection: string)

  predicate Distinct(q: seq<TaskId>) {
    forall i, j :: 0 <= i < j < |q| ==> q[i] != q[j]
  }

  lemma {:induction false} DistinctCardinality(q: seq<TaskId>)
    requires Distinct(q)
    ensures |set x | x in q| == |q|
  {
    if q != [] {
      DistinctCardinality(q[1..]);
      assert (set x | x in q) == {q[0]} + (set x | x in q[1..]);
      assert q[0] !in (set x | x in q[1..]);
    }
  }

  /**
   * `list`: one page of the user's selected tasks. `ordered` is the
   * selected rows in the order the database sorts them by
   * (`SortColumn(f)`, `SortDirection(f)`), each row once.
   */
  function List(tasks: map<TaskId, Task>, user: UserId, f: Filters, perPage: int, parseDate: string -> Date, ordered: seq<TaskId>): (r: Page)
    requires Distinct(ordered)
    requires forall id :: id in ordered <==> id in ListingIds(tasks, user, f, parseDate)
    ensures forall id :: id in r.items ==> Listed(tasks, id, user, f, parseDate)
    ensures r.items == PageOf(ordered, CurrentPage(f), ClampPerPage(perPage))
    ensures |r.items| <= r.perPage <= MaxPerPage
    ensures r.total == |ListingIds(tasks, user, f, parseDate)|
    ensures r.currentPage == CurrentPage(f) && r.currentPage >= 1
    ensures r.perPage == ClampPerPage(perPage)
    ensures r.sortBy == SortColumn(f) && r.sortDirection == SortDirection(f)
    ensures r.sortBy in SortColumns && r.sortDirection in ["asc", "desc"]
  {
    var page := CurrentPage(f);
    var size := ClampPerPage(perPage);
    assert (set x | x in ordered) == ListingIds(tasks, user, f, parseDate) by {
      forall x ensures x in (set x | x in ordered) <==> x in ListingIds(tasks, user, f, parseDate) {
      }
    }
    DistinctCardinality(ordered);
    Page(PageOf(ordered, page, size), |ordered|, page, size, SortColumn(f), SortDirection(f))
  }

  /**
   * With every other filter fixed, the archived listing and the default
   * listing are disjoint and together hold every visible task of the user
   * that passes the other filters.
   */
  lemma ArchivedPartition(tasks: map<TaskId, Task>, user: UserId, f: Filters, parseDate: string -> Date)
    requires "archived" !in f
    ensures ListingIds(tasks, user, f["archived" := "true"], parseDate) !! ListingIds(tasks, user, f, parseDate)
    ensures ListingIds(tasks, user, f["archived" := "true"], parseDate) + ListingIds(tasks, user, f, parseDate)
         == set id | id in tasks && OwnedBy(tasks, id, user) && MatchesFilters(tasks[id], f, parseDate)
  {
    var fa := f["archived" := "true"];
    assert forall t :: MatchesFilters(t, fa, parseDate) == MatchesFilters(t, f, parseDate);
  }

  // ---------------------------------------------------------------------
  // Task creation and update

  /** An uploaded file as the request delivers it. */
  datatype Upload = Upload(clientName: string, mimeType: string, size: int)

  /** The validated input of create and update. `tags` is None when the key is absent or null. */
  datatype TaskData = TaskData(
    title: string,
    description: string,
    priority: Option<Priority>,
    dueDate: Option<Date>,
    tags: Option<seq<string>>,
    attachments: seq<Upload>)

  /** The attachment row recorded for an upload stored at `path`. */
  function StoredAttachment(t: TaskId, u: Upload, path: string): (a: Attachment)
    ensures a.taskId == t && a.filePath == path && a.fileName == u.clientName
    ensures a.fileType == AttachmentModel.DetermineFileType(u.mimeType)
  {
    Attachment(t, u.clientName, path, AttachmentModel.DetermineFileType(u.mimeType), u.mimeType, u.size)
  }

  /** The row recorded for the upload numbered `a` when numbering starts at `first`. */
  function StoredAt(t: TaskId, uploads: seq<Upload>, paths: seq<string>, first: AttachmentId, a: AttachmentId): Attachment
    requires |paths| == |uploads| && first <= a < first + |uploads|
  {
    StoredAttachment(t, uploads[a - first], paths[a - first])
  }

  /** The rows recorded for uploads stored at `paths`, numbered from `first`. */
  function NewAttachments(t: TaskId, uploads: seq<Upload>, paths: seq<string>, first: AttachmentId): (m: map<AttachmentId, Attachment>)
    requires |paths| == |uploads|
    ensures forall a :: a in m <==> first <= a < first + |uploads|
  {
    map a | first <= a < first + |uploads| :: StoredAt(t, uploads, paths, first, a)
  }

  /** Recording one more upload extends the recorded rows by one. */
  lemma NewAttachmentsSnoc(old_: map<AttachmentId, Attachment>, t: TaskId, uploads: seq<Upload>, paths: seq<string>, first: AttachmentId, i: nat)
    requires |paths| == |uploads| && i < |uploads|
    ensures old_ + NewAttachments(t, uploads[..i + 1], paths[..i + 1], first)
         == (old_ + NewAttachments(t, uploads[..i], paths[..i], first))[first + i := StoredAttachment(t, uploads[i], paths[i])]
  {
    var before := NewAttachments(t, uploads[..i], paths[..i], first);
    var after := NewAttachments(t, uploads[..i + 1], paths[..i + 1], first);
    assert after == before[first + i := StoredAttachment(t, uploads[i], paths[i])] by {
      forall a | a in after ensures a in before[first + i := StoredAttachment(t, uploads[i], paths[i])]
        && after[a] == before[first + i := StoredAttachment(t, uploads[i], paths[i])][a]
      {
        var j := a - first;
        assert uploads[..i + 1][j] == uploads[j] && paths[..i + 1][j] == paths[j];
        if j < i {
          assert uploads[..i][j] == uploads[j] && paths[..i][j] == paths[j];
        }
      }
    }
  }

  /** The paths named in a list. */
  function PathSet(paths: seq<string>): (r: set<string>)
    ensures forall p :: p in r <==> p in paths
  {
    set p | p in paths
  }

  lemma PathSetSnoc(paths: seq<string>, i: nat)
    requires i < |paths|
    ensures PathSet(paths[..i + 1]) == PathSet(paths[..i]) + {paths[i]}
  {
    assert paths[..i + 1] == paths[..i] + [paths[i]];
  }

  /** Stores one upload and records its row under the next attachment id. */
  method AddAttachment(db: Database, row: Attachment, path: string)
    requires db.Valid() && row.taskId in db.tasks
    modifies db
    ensures db.Valid()
    ensures db.State() == old(db.State()).(attachments := old(db.attachments)[old(db.nextAttachmentId) := row],
                                           nextAttachmentId := old(db.nextAttachmentId) + 1,
                                           files := old(db.files) + {path})
  {
    db.files := db.files + {path};
    db.attachments := db.attachments[db.nextAttachmentId := row];
    db.nextAttachmentId := db.nextAttachmentId + 1;
  }

  /**
   * `task_order` for a new task: one more than the largest order among the
   * user's tasks, 1 when the user has none.
   */
  function NextTaskOrder(tasks: map<TaskId, Task>, user: UserId): (r: int)
    ensures forall id :: OwnedBy(tasks, id, user) ==> tasks[id].taskOrder < r
    ensures (forall id :: !OwnedBy(tasks, id, user)) ==> r == 1
    ensures (exists id :: OwnedBy(tasks, id, user)) ==> exists id :: OwnedBy(tasks, id, user) && r == tasks[id].taskOrder + 1
  {
    var orders := set id | id in tasks && OwnedBy(tasks, id, user) :: tasks[id].taskOrder;
    assert forall id :: OwnedBy(tasks, id, user) ==> tasks[id].taskOrder in orders;
    if orders == {} then 1 else Ordering.MaxOf(orders) + 1
  }

  /** The row `create` inserts. */
  function NewTask(data: TaskData, user: UserId, order: int, now: Timestamp): (t: Task)
    ensures t.userId == user && t.title == data.title && t.description == data.description
    ensures t.priority == data.priority.GetOr(DefaultPriority)
    ensures t.dueDate == data.dueDate && t.taskOrder == order
    ensures t.completedAt.None? && t.archivedAt.None? && t.deletedAt.None?
  {
    Task(user, data.title, data.description, data.dueDate, data.priority.GetOr(DefaultPriority), order, None, None, None, now)
  }

  /**
   * The row after `update`: title and description are overwritten;
   * priority and due date keep their old values when the input has none.
   */
  function UpdatedTask(t: Task, data: TaskData): (r: Task)
    ensures r.title == data.title && r.description == data.description
    ensures r.priority == if data.priority.Some? then data.priority.value else t.priority
    ensures r.dueDate == if data.dueDate.Some? then data.dueDate else t.dueDate
    ensures r.userId == t.userId && r.taskOrder == t.taskOrder && r.completedAt == t.completedAt
    ensures r.archivedAt == t.archivedAt && r.deletedAt == t.deletedAt
  {
    t.(title := data.title, description := data.description,
       priority := data.priority.GetOr(t.priority),
       dueDate := if data.dueDate.Some? then data.dueDate else t.dueDate)
  }

  /** handleTags: look the task up, then give it exactly the named tags, creating the missing ones. */
  method HandleTags(db: Database, t: TaskId, names: seq<string>) returns (found: bool)
    requires db.Valid()
    modifies db
    ensures db.Valid()
    ensures found <==> FindTask(old(db.tasks), t).Some?
    ensures !found ==> db.State() == old(db.State())
    ensures found ==> TagService.TaggedExactly(db.tags, db.taskTags, t, names)
    ensures found ==> TagService.GrownBy(old(db.tags), db.tags, names)
    ensures forall u :: u != t ==> TagsOfTask(db.taskTags, u) == TagsOfTask(old(db.taskTags), u)
    ensures db.State() == old(db.State()).(tags := db.tags, nextTagId := db.nextTagId, taskTags := db.taskTags)
  {
    if FindTask(db.tasks, t).None? {
      return false;
    }
    TagService.AttachToTask(db, t, names);
    found := true;
  }

  /** handleAttachments: store each upload at its path and record one row per upload. */
  method HandleAttachments(db: Database, t: TaskId, uploads: seq<Upload>, paths: seq<string>)
    requires db.Valid() && t in db.tasks && |paths| == |uploads|
    modifies db
    ensures db.Valid()
    ensures db.State() == old(db.State()).(attachments := old(db.attachments) + NewAttachments(t, uploads, paths, old(db.nextAttachmentId)),
                                           nextAttachmentId := old(db.nextAttachmentId) + |uploads|,
                                           files := old(db.files) + PathSet(paths))
  {
    var first := db.nextAttachmentId;
    ghost var start := db.State();
    var i := 0;
    while i < |uploads|
      invariant 0 <= i <= |uploads|
      invariant db.Valid() && t in db.tasks
      invariant db.State() == start.(attachments := start.attachments + NewAttachments(t, uploads[..i], paths[..i], first),
                                     nextAttachmentId := first + i,
                                     files := start.files + PathSet(paths[..i]))
    {
      NewAttachmentsSnoc(start.attachments, t, uploads, paths, first, i);
      PathSetSnoc(paths, i);
      AddAttachment(db, StoredAttachment(t, uploads[i], paths[i]), paths[i]);
      i := i + 1;
    }
    assert uploads[..i] == uploads && paths[..i] == paths;
  }

  /** Tag names were supplied and the list is not empty (`! empty($data['tags'])`). */
  predicate HasTagNames(data: TaskData) {
    data.tags.Some? && data.tags.value != []
  }

  /**
   * The tag tables after the task `t` was given the tags `names` (when
   * there are any to give): exactly those tags, each reused or created,
   * with every other task's tags and every old tag as they were.
   */
  ghost predicate TagsHandled(s: Tables, s': Tables, t: TaskId, names: Option<seq<string>>) {
    && (names.Some? ==> TagService.TaggedExactly(s'.tags, s'.taskTags, t, names.value)
                        && TagService.GrownBy(s.tags, s'.tags, names.value))
    && (names.None? ==> s'.tags == s.tags && s'.taskTags == s.taskTags && s'.nextTagId == s.nextTagId)
    && (forall u :: u != t ==> TagsOfTask(s'.taskTags, u) == TagsOfTask(s.taskTags, u))
  }

  /** The attachment rows and stored files after the uploads of `t` were stored at `paths`. */
  ghost predicate UploadsStored(s: Tables, s': Tables, t: TaskId, uploads: seq<Upload>, paths: seq<string>)
    requires |paths| == |uploads|
  {
    && s'.attachments == s.attachments + NewAttachments(t, uploads, paths, s.nextAttachmentId)
    && s'.nextAttachmentId == s.nextAttachmentId + |uploads|
    && s'.files == s.files + PathSet(paths)
  }

  /**
   * The whole effect of `create` from tables `s` to `s'`: the new row under
   * the next id, its tags when names were given (none otherwise), its
   * uploads, and nothing else.
   */
  ghost predicate Created(s: Tables, s': Tables, data: TaskData, paths: seq<string>, id: TaskId)
    requires |paths| == |data.attachments|
  {
    && id == s.nextTaskId && s'.nextTaskId == s.nextTaskId + 1
    && s'.tasks == s.tasks[id := NewTask(data, s.userId, NextTaskOrder(s.tasks, s.userId), s.now)]
    && TagsHandled(s, s', id, if HasTagNames(data) then data.tags else None)
    && (!HasTagNames(data) ==> TagsOfTask(s'.taskTags, id) == {})
    && UploadsStored(s, s', id, data.attachments, paths)
    && s'.userId == s.userId && s'.now == s.now
  }

  /**
   * The whole effect of a successful `update` of task `id`: the rewritten
   * row, the tags replaced when a tags key was sent, the new uploads, and
   * nothing else.
   */
  ghost predicate Updated(s: Tables, s': Tables, id: TaskId, data: TaskData, paths: seq<string>)
    requires |paths| == |data.attachments|
  {
    && id in s.tasks
    && s'.tasks == s.tasks[id := UpdatedTask(s.tasks[id], data)]
    && s'.nextTaskId == s.nextTaskId
    && TagsHandled(s, s', id, data.tags)
    && UploadsStored(s, s', id, data.attachments, paths)
    && s'.userId == s.userId && s'.now == s.now
  }

  /**
   * `create`: inserts the user's new task with the next order, then tags
   * it when names were given and records its uploads.
   */
  method Create(db: Database, data: TaskData, paths: seq<string>) returns (id: TaskId)
    requires db.Valid() && |paths| == |data.attachments|
    modifies db
    ensures db.Valid()
    ensures id !in old(db.tasks)
    ensures Created(old(db.State()), db.State(), data, paths, id)
  {
    ghost var s := db.State();
    var order := NextTaskOrder(db.tasks, db.userId);
    id := db.nextTaskId;
    db.tasks := db.tasks[id := NewTask(data, db.userId, order, db.now)];
    db.nextTaskId := db.nextTaskId + 1;
    assert TagsOfTask(db.taskTags, id) == {};
    if HasTagNames(data) {
      var found := HandleTags(db, id, data.tags.value);
    }
    assert TagsHandled(s, db.State(), id, if HasTagNames(data) then data.tags else None);
    ghost var s1 := db.State();
    if data.attachments != [] {
      HandleAttachments(db, id, data.attachments, paths);
    } else {
      assert NewAttachments(id, data.attachments, paths, db.nextAttachmentId) == map[];
      assert PathSet(paths) == {};
    }
    assert UploadsStored(s1, db.State(), id, data.attachments, paths);
  }

  /**
   * `update`: 404 (false) when the task is missing or deleted. Otherwise
   * the row is rewritten, the tags are replaced when a tags key was sent
   * (an empty list clears them), and new uploads are added beside the
   * existing attachments.
   */
  method Update(db: Database, id: TaskId, data: TaskData, paths: seq<string>) returns (found: bool)
    requires db.Valid() && |paths| == |data.attachments|
    modifies db
    ensures db.Valid()
    ensures found <==> FindTask(old(db.tasks), id).Some?
    ensures !found ==> db.State() == old(db.State())
    ensures found ==> Updated(old(db.State()), db.State(), id, data, paths)
  {
    ghost var s := db.State();
    var task := FindTask(db.tasks, id);
    if task.None? {
      return false;
    }
    db.tasks := db.tasks[id := UpdatedTask(task.value, data)];
    if data.tags.Some? {
      var _ := HandleTags(db, id, data.tags.value);
    }
    assert TagsHandled(s, db.State(), id, data.tags);
    ghost var s1 := db.State();
    if data.attachments != [] {
      HandleAttachments(db, id, data.attachments, paths);
    } else {
      assert NewAttachments(id, data.attachments, paths, db.nextAttachmentId) == map[];
      assert PathSet(paths) == {};
    }
    assert UploadsStored(s1, db.State(), id, data.attachments, paths);
    found := true;
  }

  // ---------------------------------------------------------------------
  // Status changes

  /** The new `completed_at`: cleared when set, set to now when clear. */
  function ToggledCompletion(completedAt: Option<Timestamp>, now: Timestamp): (r: Option<Timestamp>)
    ensures r.Some? <==> completedAt.None?
    ensures r.Some? ==> r.value == now
  {
    if completedAt.Some? then None else Some(now)
  }

  /** Toggling twice from "not completed" ends "not completed". */
  lemma ToggleTwiceFromUnset(first: Timestamp, second: Timestamp)
    ensures ToggledCompletion(ToggledCompletion(None, first), second) == None
  {
  }

  /** `toggleComplete`: 404 (false) when missing, otherwise flips `completed_at`. */
  method ToggleComplete(db: Database, id: TaskId) returns (found: bool)
    requires db.Valid()
    modifies db
    ensures db.Valid()
    ensures found <==> FindTask(old(db.tasks), id).Some?
    ensures !found ==> db.State() == old(db.State())
    ensures found ==> db.State() == old(db.State()).(tasks := old(db.tasks)[id :=
              old(db.tasks)[id].(completedAt := ToggledCompletion(old(db.tasks)[id].completedAt, old(db.now)))])
  {
    var task := FindTask(db.tasks, id);
    if task.None? {
      return false;
    }
    db.tasks := db.tasks[id := task.value.(completedAt := ToggledCompletion(task.value.completedAt, db.now))];
    found := true;
  }

  /** The two directions of `toggleArchive` (TaskStatus). */
  datatype TaskStatus = Archived | Restore

  /** The new `archived_at`: cleared for RESTORE, now for any other status. */
  function ArchivedValue(status: TaskStatus, now: Timestamp): (r: Option<Timestamp>)
    ensures r.None? <==> status == Restore
    ensures r.Some? ==> r.value == now
  {
    if status == Restore then None else Some(now)
  }

  /** `toggleArchive`: 404 (false) when missing, otherwise sets or clears `archived_at`. */
  method ToggleArchive(db: Database, id: TaskId, status: TaskStatus) returns (found: bool)
    requires db.Valid()
    modifies db
    ensures db.Valid()
    ensures found <==> FindTask(old(db.tasks), id).Some?
    ensures !found ==> db.State() == old(db.State())
    ensures found ==> db.State() == old(db.State()).(tasks := old(db.tasks)[id :=
              old(db.tasks)[id].(archivedAt := ArchivedValue(status, old(db.now)))])
  {
    var task := FindTask(db.tasks, id);
    if task.None? {
      return false;
    }
    db.tasks := db.tasks[id := task.value.(archivedAt := ArchivedValue(status, db.now))];
    found := true;
  }

  // ---------------------------------------------------------------------
  // Delete

  /**
   * `delete`: 404 (false) when missing. Otherwise every attachment's file
   * is removed from the file store, then the task is soft-deleted. The
   * attachment rows and tag associations stay.
   */
  method Delete(db: Database, id: TaskId) returns (found: bool)
    requires db.Valid()
    modifies db
    ensures db.Valid()
    ensures found <==> FindTask(old(db.tasks), id).Some?
    ensures !found ==> db.State() == old(db.State())
    ensures found ==> db.State() == old(db.State()).(
              tasks := old(db.tasks)[id := old(db.tasks)[id].(deletedAt := Some(old(db.now)))],
              files := old(db.files) - PathsOf(old(db.attachments), AttachmentsOf(old(db.attachments), id)))
  {
    var task := FindTask(db.tasks, id);
    if task.None? {
      return false;
    }
    ghost var all := AttachmentsOf(db.attachments, id);
    var pending := AttachmentsOf(db.attachments, id);
    while pending != {}
      invariant pending <= all && all <= db.attachments.Keys
      invariant db.files == old(db.files) - PathsOf(db.attachments, all - pending)
      invariant db.State() == old(db.State()).(files := db.files)
      decreases pending
    {
      assert exists a :: a in pending by {
        var a := Ordering.Pick(pending);
      }
      var a :| a in pending;
      assert PathsOf(db.attachments, all - (pending - {a})) == PathsOf(db.attachments, all - pending) + {db.attachments[a].filePath};
      db.files := db.files - {db.attachments[a].filePath};
      pending := pending - {a};
    }
    assert all - pending == all;
    db.tasks := db.tasks[id := task.value.(deletedAt := Some(db.now))];
    found := true;
  }

  // ---------------------------------------------------------------------
  // Reorder

  /** One `{id, order}` pair of a reorder request. */
  datatype OrderEntry = OrderEntry(id: TaskId, order: int)

  /** One UPDATE of the reorder loop: only a visible task of `user` is changed. */
  function ApplyOrder(tasks: map<TaskId, Task>, user: UserId, e: OrderEntry): map<TaskId, Task> {
    if OwnedBy(tasks, e.id, user) then tasks[e.id := tasks[e.id].(taskOrder := e.order)] else tasks
  }

  /** The tasks after the reorder loop has run over `entries` in order. */
  function Reordered(tasks: map<TaskId, Task>, user: UserId, entries: seq<OrderEntry>): (r: map<TaskId, Task>)
    ensures r.Keys == tasks.Keys
    decreases |entries|
  {
    if entries == [] then tasks else Reordered(ApplyOrder(tasks, user, entries[0]), user, entries[1..])
  }

  /** The order given by the last entry for `id`, if any. */
  function LastOrderFor(entries: seq<OrderEntry>, id: TaskId): (r: Option<int>)
    ensures r.None? <==> forall i :: 0 <= i < |entries| ==> entries[i].id != id
    ensures r.Some? ==> exists i :: 0 <= i < |entries| && entries[i].id == id && entries[i].order == r.value &&
                                    forall j :: i < j < |entries| ==> entries[j].id != id
    decreases |entries|
  {
    if entries == [] then None
    else
      var later := LastOrderFor(entries[1..], id);
      if later.Some? then
        ghost var i :| 0 <= i < |entries[1..]| && entries[1..][i].id == id && entries[1..][i].order == later.value &&
                       forall j :: i < j < |entries[1..]| ==> entries[1..][j].id != id;
        assert entries[i + 1].id == id;
        later
      else if entries[0].id == id then
        Some(entries[0].order)
      else None
  }

  /**
   * After a reorder, the id set is unchanged; a visible task of the user
   * that some entry names takes the order of the last such entry; every
   * other task is unchanged.
   */
  lemma {:induction false} ReorderedAt(tasks: map<TaskId, Task>, user: UserId, entries: seq<OrderEntry>, id: TaskId)
    ensures id in Reordered(tasks, user, entries) <==> id in tasks
    ensures id in tasks ==> (Reordered(tasks, user, entries)[id] ==
              if OwnedBy(tasks, id, user) && LastOrderFor(entries, id).Some?
              then tasks[id].(taskOrder := LastOrderFor(entries, id).value)
              else tasks[id])
    decreases |entries|
  {
    if entries != [] {
      var next := ApplyOrder(tasks, user, entries[0]);
      ReorderedAt(next, user, entries[1..], id);
      assert OwnedBy(next, id, user) <==> OwnedBy(tasks, id, user);
    }
  }

  /** `reorder`: each `{id, order}` updates that task only when it is one of the user's. */
  method Reorder(db: Database, entries: seq<OrderEntry>)
    requires db.Valid()
    modifies db
    ensures db.Valid()
    ensures db.State() == old(db.State()).(tasks := Reordered(old(db.tasks), old(db.userId), entries))
  {
    var i := 0;
    while i < |entries|
      invariant 0 <= i <= |entries|
      invariant db.Valid()
      invariant db.tasks.Keys == old(db.tasks).Keys
      invariant Reordered(db.tasks, db.userId, entries[i..]) == Reordered(old(db.tasks), db.userId, entries)
      invariant db.State() == old(db.State()).(tasks := db.tasks)
    {
      var e := entries[i];
      if e.id in db.tasks && db.tasks[e.id].deletedAt.None? && db.tasks[e.id].userId == db.userId {
        db.tasks := db.tasks[e.id := db.tasks[e.id].(taskOrder := e.order)];
      }
      assert entries[i..][1..] == entries[i + 1..];
      i := i + 1;
    }
  }
}

=== FILE: task_update_request.dfy ===
/**
 * The task update request (app/Http/Requests/Task/TaskUpdateRequest.php):
 * the validation rules a task update must pass, and the validated data
 * the service then receives.
 */
module TaskUpdateRequest {
  import opened Wrappers
  import opened Schema
  import opened FormInput
  import TaskService

  /** The longest title accepted. */
  const MaxTitle: int := 255
  /** The longest tag name accepted. */
  const MaxTagName: int := 50
  /** The largest upload accepted, in kilobytes (`max:10240`). */
  const MaxUploadKb: int := 10240
  /** The accepted upload extensions (`mimes:`). */
  const UploadExtensions: seq<string> := ["jpg", "jpeg", "png", "gif", "mp4", "csv", "txt", "doc", "docx"]

  /** title: required, string, max:255. */
  predicate TitleOk(input: Input) {
    RequiredStringAtMost(input, "title", MaxTitle)
  }

  /** description: required, string. */
  predicate DescriptionOk(input: Input) {
    "description" in input && Filled(input["description"]) && input["description"].Str?
  }

  /** priority: nullable, string, in:urgent,high,normal,low. */
  predicate PriorityOk(input: Input) {
    Checked(input, "priority") ==> input["priority"].Str? && ParsePriority(input["priority"].s).Some?
  }

  /** due_date: nullable, date, after_or_equal:today. `parseDate` stands for PHP's date parser. */
  predicate DueDateOk(input: Input, today: Date, parseDate: string -> Option<Date>) {
    Checked(input, "due_date") ==>
      input["due_date"].Str? && parseDate(input["due_date"].s).Some? && parseDate(input["due_date"].s).value >= today
  }

  /** tags: nullable, array; tags.*: required, string, max:50. */
  predicate TagsOk(input: Input) {
    Checked(input, "tags") ==> input["tags"].Arr? && AllStringsAtMost(input["tags"].items, MaxTagName)
  }

  /** One attachment: required, file, max:10240 (kilobytes), mimes:… */
  predicate UploadOk(v: Value) {
    Filled(v) && v.File? && v.file.size <= MaxUploadKb * 1024 && v.file.guessedExtension in UploadExtensions
  }

  /** attachments: nullable, array; attachments.*: an acceptable file. */
  predicate AttachmentsOk(input: Input) {
    Checked(input, "attachments") ==>
      input["attachments"].Arr? && forall i :: 0 <= i < |input["attachments"].items| ==> UploadOk(input["attachments"].items[i])
  }

  /** The fields whose rules fail. */
  function Errors(input: Input, today: Date, parseDate: string -> Option<Date>): (r: set<string>)
    ensures "title" in r <==> !TitleOk(input)
    ensures "description" in r <==> !DescriptionOk(input)
    ensures "priority" in r <==> !PriorityOk(input)
    ensures "due_date" in r <==> !DueDateOk(input, today, parseDate)
    ensures "tags" in r <==> !TagsOk(input)
    ensures "attachments" in r <==> !AttachmentsOk(input)
    ensures r <= {"title", "description", "priority", "due_date", "tags", "attachments"}
  {
    (if TitleOk(input) then {} else {"title"})
    + (if DescriptionOk(input) then {} else {"description"})
    + (if PriorityOk(input) then {} else {"priority"})
    + (if DueDateOk(input, today, parseDate) then {} else {"due_date"})
    + (if TagsOk(input) then {} else {"tags"})
    + (if AttachmentsOk(input) then {} else {"attachments"})
  }

  /** The outcome of validation: the validated data, or 422 naming the failing fields. */
  datatype Validation = Validated(data: TaskService.TaskData) | Invalid(fields: set<string>)

  /** The uploads of a list of acceptable files. */
  function Uploads(items: seq<Value>): (r: seq<TaskService.Upload>)
    requires forall i :: 0 <= i < |items| ==> items[i].File?
    ensures |r| == |items|
    ensures forall i :: 0 <= i < |items| ==>
              r[i] == TaskService.Upload(items[i].file.clientName, items[i].file.mimeType, items[i].file.size)
  {
    if items == [] then []
    else [TaskService.Upload(items[0].file.clientName, items[0].file.mimeType, items[0].file.size)] + Uploads(items[1..])
  }

  /**
   * `$request->validated()` as the service reads it: a missing or null
   * priority, due date or tag list becomes "not given".
   */
  function Validate(input: Input, today: Date, parseDate: string -> Option<Date>): (r: Validation)
    ensures r.Invalid? <==> Errors(input, today, parseDate) != {}
    ensures r.Invalid? ==> r.fields == Errors(input, today, parseDate)
    ensures r.Validated? ==> |r.data.title| <= MaxTitle && r.data.title != "" && r.data.title == input["title"].s
    ensures r.Validated? ==> r.data.description == input["description"].s
    ensures r.Validated? ==> (r.data.priority.Some? <==> Checked(input, "priority"))
    ensures r.Validated? && r.data.priority.Some? ==> PriorityName(r.data.priority.value) == input["priority"].s
    ensures r.Validated? ==> r.data.dueDate == if Checked(input, "due_date") then parseDate(input["due_date"].s) else None
    ensures r.Validated? ==> (r.data.dueDate.Some? <==> Checked(input, "due_date"))
    ensures r.Validated? && r.data.dueDate.Some? ==> r.data.dueDate.value >= today
    ensures r.Validated? ==> (r.data.tags.Some? <==> Checked(input, "tags"))
    ensures r.Validated? && r.data.tags.Some? ==>
              forall i :: 0 <= i < |r.data.tags.value| ==> r.data.tags.value[i] != "" && |r.data.tags.value[i]| <= MaxTagName
    ensures r.Validated? && r.data.tags.Some? ==>
              |r.data.tags.value| == |input["tags"].items| &&
              forall i :: 0 <= i < |r.data.tags.value| ==> input["tags"].items[i] == Str(r.data.tags.value[i])
    ensures r.Validated? ==> (r.data.attachments != [] ==> Checked(input, "attachments"))
    ensures r.Validated? && Checked(input, "attachments") ==>
              |r.data.attachments| == |input["attachments"].items| &&
              forall i :: 0 <= i < |r.data.attachments| ==>
                input["attachments"].items[i].File? &&
                r.data.attachments[i] == TaskService.Upload(input["attachments"].items[i].file.clientName,
                                                            input["attachments"].items[i].file.mimeType,
                                                            input["attachments"].items[i].file.size)
    ensures r.Validated? ==> forall i :: 0 <= i < |r.data.attachments| ==> r.data.attachments[i].size <= MaxUploadKb * 1024
  {
    if Errors(input, today, parseDate) != {} then Invalid(Errors(input, today, parseDate))
    else
      assert TitleOk(input) && DescriptionOk(input) && PriorityOk(input) && DueDateOk(input, today, parseDate);
      assert TagsOk(input) && AttachmentsOk(input);
      var priority := if Checked(input, "priority") then ParsePriority(input["priority"].s) else None;
      var due := if Checked(input, "due_date") then parseDate(input["due_date"].s) else None;
      var tags := if Checked(input, "tags") then Some(Strings(input["tags"].items)) else None;
      var uploads := if Checked(input, "attachments") then Uploads(input["attachments"].items) else [];
      Validated(TaskService.TaskData(input["title"].s, input["description"].s, priority, due, tags, uploads))
  }

  /** An empty tag list passes validation and reaches the service as a given, empty list. */
  lemma EmptyTagListIsGiven(input: Input, today: Date, parseDate: string -> Option<Date>)
    requires "tags" in input && input["tags"] == Arr([])
    requires Validate(input, today, parseDate).Validated?
    ensures Validate(input, today, parseDate).data.tags == Some([])
  {
  }
}

=== FILE: wrappers.dfy ===
/** Optional values, standing for PHP `null` and JavaScript `null`/`undefined`. */
module Wrappers {

  datatype Option<+T> = None | Some(value: T) {

    /** The value, or `default` when absent (PHP's `??` operator). */
    function GetOr(default: T): T {
      match this
      case Some(v) => v
      case None => default
    }
  }
}
